=== FILE: README.md ===
# go-autumn-kafka core, modelled in Dafny

This project models the logic that sits under the broker-client plumbing of
go-autumn-kafka, a typed publish/subscribe layer over Kafka. The code has two
packages: `pkg/kafka`, built on sarama, and `pkg/aukafka`, built on franz-go.
The model covers four pieces of logic:

- **Topic-config resolution.** A JSON document maps topic keys to raw
  descriptors, and each descriptor becomes a resolved `TopicConfig`. Both
  versions of `parseTopicConfigs` are modelled, together with `Obtain`,
  the configuration items and `Validate`.
- **Consumer loops.** Two loops are modelled as folds over the events they
  observe: sarama's per-claim `ConsumeClaim` loop with its outer `run` loop,
  and the franz-go `run` polling loop. The consumer-group check of
  `NewConsumer` is also here.
- **Producers.** The sarama synchronous and fire-and-forget producers and the
  two franz-go producers. This covers key and value encoding, the
  marshal-error short-circuit and error pass-through.
- **SASL merge.** `mergeConfigWithPreset` sets the four SASL credential
  settings on a client configuration.

The broker clients, the JSON codec and the environment are parameters.
`env: string -> string` is the environment lookup. `unmarshal` returns a
decoded document or `None`. `marshal` and `decode` are partial codecs.
`send`, `produce` and `connect` stand for the client calls, and `callback`
is the user's receive callback. Go's `nil` becomes `None` or `Nil`. A Go
panic becomes an explicit outcome (`Crash`, `Panicked`). Go strings used as
message keys are byte sequences (`Wire.Bytes`).

Go visits map keys in an unspecified order. The decoded document therefore
carries the order its keys are visited in (`Topics.Document`). For the
corrected parses and for the pkg/kafka parse as written, whether a document
parses, and what it parses to, are the same for every order; only which error
is reported depends on it. For the aukafka parse as written, the order also
decides between an error and a panic: a descriptor with only a literal password
panics unless the walk first reaches another descriptor that fails
(`AuConfig.OrderDecidesPanic`).

Modules, one per source file or shared concept:

| module | models |
|---|---|
| `Wrappers`, `Seqs` | Option/Result; order-preserving filter and map |
| `Wire` | byte slices, key/value encoding, sarama messages, franz-go records and `FirstErr` |
| `Topics` | the shared `TopicConfig`, config errors, the all-or-nothing resolution fold |
| `AuConfig` | `pkg/aukafka/config.go` |
| `KafkaConfig`, `Validation` | `pkg/kafka/config.go` |
| `ClientSettings` | `pkg/aukafka/common.go`, the producers' client config |
| `KafkaConsumer` | `pkg/kafka/consumer.go` |
| `AuConsumer` | `pkg/aukafka/consumer.go` |
| `KafkaSyncProducer`, `KafkaAsyncProducer`, `KafkaProducer`, `AuProducer` | the four producer files |
| `Delivery` | producer-to-consumer round trips |

Behaviour of the code worth knowing:

- The sarama claim loop does not skip a record whose value fails to decode. It
  logs the failure and still calls the callback, with the zero event. Only the
  franz-go loop skips such a record.
- The literal-password branch of the aukafka parser never yields the literal
  (see Findings).
- The post-send callback runs at most once: it is skipped when it is nil and
  when marshalling fails.
- Config errors name the descriptor's `topic` field rather than its topic key.
- The aukafka empty-variable error (pkg/aukafka/config.go:78) formats the `*string` variable name with `%s`, so its text shows a pointer value rather than the name; `Topics.EmptyEnvPassword` records the name itself.

## Model

| member | source | states |
|---|---|---|
| Topics.Collect | pkg/aukafka/config.go:71-98 | Resolving entries in iteration order gives a map exactly when every entry resolves. The map's keys are the visited keys and each value is that entry's resolution. Otherwise the result is the failure of the first failing entry. |
| Topics.ParseDocument | pkg/aukafka/config.go:65-99 | A document that did not decode is `Malformed`. Otherwise the result is all-or-nothing: a map with exactly the document's keys when every entry resolves, else the failure of some failing entry and never a partial map. |
| Topics.ParseIndependentOfOrder | pkg/aukafka/config.go:72-97 | Two iteration orders of the same entries agree on whether the document parses, and on the resulting map. |
| Topics.CollectAgreesUnlessPanicked | pkg/aukafka/config.go:72-98 | Take two descriptor resolutions where the second resolves wherever the first does and fails with the same error wherever the first reports one. Walking the entries, the second succeeds whenever the first does, and fails identically whenever the first is rejected. |
| AuConfig.Resolve | pkg/aukafka/config.go:73-96 | A named variable wins over a literal: the password is its looked-up value, and an empty lookup is `EmptyEnvPassword`. Otherwise a literal is used, and an empty one is an error. A descriptor with neither field is `NoPassword`. A resolved config copies topic, brokers, username, consumer group and auth type, and has a non-empty password. |
| AuConfig.ResolveAsWritten | pkg/aukafka/config.go:80-84 | A descriptor with only a literal password crashes, because the nil `passwordEnvVar` is dereferenced. Every other descriptor resolves as under `Resolve`. |
| AuConfig.ParseTopicConfigsAsWritten | pkg/aukafka/config.go:65-99 | Malformed JSON is an error. The parse panics only on a document holding a descriptor with only a literal password. Whenever it does not panic it equals the corrected parse, so a document whose every descriptor names a variable parses exactly as corrected. A successful parse implies every descriptor named a variable. |
| AuConfig.ParseTopicConfigs | pkg/aukafka/config.go:65-99 | Malformed JSON is an error, and the parse never panics. It succeeds exactly when every descriptor resolves. The map then has the document's key set and copied fields. Each password is the named variable's value when a variable is named, and else the literal, which must be present; all are non-empty. |
| AuConfig.Obtain | pkg/aukafka/config.go:61-63 | The corrected load. It never panics and discards the parse error. It stores a nil map exactly when the document fails to parse, and otherwise the corrected parse's map, whose passwords are all non-empty. |
| AuConfig.ObtainAsWritten | pkg/aukafka/config.go:61-63 | The load as the code writes it, through the as-written parse. It panics exactly when that parse panics. Otherwise it stores a nil map exactly when the document is rejected, and else the corrected parse's map. |
| AuConfig.ObtainAgreesUnlessCrashed | pkg/aukafka/config.go:61-63 | Whenever the as-written load does not panic, it stores exactly what the corrected load stores. |
| AuConfig.AsWrittenAgreesUnlessPanicked | pkg/aukafka/config.go:72-97 | On a decoded document the as-written parse equals the corrected one unless it panics. It panics only because of a literal-only descriptor, and it succeeds only when every descriptor names a variable. |
| AuConfig.ConfigItems | pkg/aukafka/config.go:45-59 | The package's configuration item validates through the as-written parse. Validation passes exactly when that parse succeeds and panics exactly when it panics. Otherwise it reports what the corrected parse reports. |
| Topics.ConfigItems | pkg/aukafka/config.go:45-59 | Either package's one configuration item, `KAFKA_TOPICS_CONFIG` (pkg/kafka/config.go:40-52 is the same item), reads the document from the environment and validates it with the given parse. It passes exactly when the parse succeeds, panics exactly when the parse panics, and otherwise reports the parse's error. |
| KafkaConfig.ConfigItems | pkg/kafka/config.go:40-52 | The pkg/kafka item validates through the as-written parse. Its validator never panics, passes exactly when the document parses, and otherwise reports that parse's error. |
| AuConfig.EnvVarTakesPrecedence | pkg/aukafka/config.go:75-80 | When a password variable is named, the literal password (present or not) does not affect resolution. |
| AuConfig.OneBadEntryFailsAll | pkg/aukafka/config.go:72-88 | One descriptor that fails to resolve makes the whole parse an error. |
| AuConfig.LiteralOnlyNeverParsesAsWritten | pkg/aukafka/config.go:80-84 | A document containing a literal-only descriptor never parses as written. |
| AuConfig.LiteralPasswordCounterexample | pkg/aukafka/config.go:80-84 | On a concrete one-topic document with literal password "secret", the as-written parse panics. The corrected parse yields "secret". |
| AuConfig.OrderDecidesPanic | pkg/aukafka/config.go:72-87 | On one literal-only descriptor and one with no password, the as-written parse panics when the literal-only one is visited first. It rejects the document with `NoPassword` when the other is visited first, and the as-written load then stores nil instead of crashing. |
| AuConfig.EnvVarScenario | pkg/aukafka/config.go:75-79 | A descriptor naming `ORDERS_PW`, with that variable set to "secret", resolves to password "secret" and auth type "plain". |
| KafkaConfig.ResolveAsWritten | pkg/kafka/config.go:80-93 | The password is always the named variable's value, and an empty value is `EmptyEnvPassword`. Topic, brokers, username and auth type are copied, and the consumer group is always nil. |
| KafkaConfig.Resolve | pkg/kafka/config.go:80-93 | Succeeds and fails exactly where the as-written resolution does, and additionally carries the descriptor's consumer group. |
| KafkaConfig.ParseTopicConfigsAsWritten | pkg/kafka/config.go:73-96 | Malformed JSON is an error. Otherwise it succeeds exactly when every descriptor's variable looks up non-empty. The map then has the document's key set, copied fields and the looked-up password, and every consumer group is nil. |
| KafkaConfig.AsWrittenDropsOnlyTheGroup | pkg/kafka/config.go:87-93 | The as-written and corrected parses accept the same documents. Their maps have the same keys and agree on every field except the consumer group. |
| KafkaConfig.ParseTopicConfigs | pkg/kafka/config.go:73-96 | Malformed JSON is an error. It succeeds exactly when every descriptor's variable looks up non-empty. The map then has the document's key set, copied fields, the looked-up password and the consumer group. |
| KafkaConfig.Validate | pkg/kafka/config.go:54-67 | Validation runs the item's validator, which calls the as-written parse. It returns nil exactly when the topic document parses, and otherwise a joined error holding that parse's one error. |
| KafkaConfig.AsWrittenRejectsAlike | pkg/kafka/config.go:73-96 | Whenever the as-written parse rejects a document, the corrected parse rejects it with the same error. |
| KafkaConfig.ConsumerGroupCounterexample | pkg/kafka/config.go:87-93 | On a concrete document naming group "g", the as-written parse yields a nil group and the corrected parse yields "g". |
| Validation.Validate | pkg/kafka/config.go:54-67 | A panicking validator ends validation, and this happens exactly when some item's validator panics. Otherwise validation returns nil exactly when every item passes, and else the join of every reported failure, in item order, which is non-empty. |
| Validation.FailuresEmptyIff | pkg/kafka/config.go:55-66 | The joined failures are empty exactly when no item's validator reports an error. |
| ClientSettings.MergeConfigWithPreset | pkg/aukafka/common.go:5-20 | The error is always nil. The result enables SASL and carries the topic's username, password and auth type as mechanism. Every other setting equals the preset's, or the fresh default's when there is no preset. |
| ClientSettings.MergeIdempotent | pkg/aukafka/common.go:15-18 | Merging the same topic into an already merged config changes nothing. |
| ClientSettings.ProducerClientConfig | pkg/kafka/producer_sync.go:22-26 | The sarama producers' client config reports successes and carries the topic's credentials. All other settings come from the preset or the defaults. |
| KafkaConsumer.NewConsumer | pkg/kafka/consumer.go:20-48 | A nil or empty consumer group is refused with `MissingGroup`. Otherwise the call succeeds exactly when the client is created, and the consumer then holds the config, the group and credentials-carrying client settings. |
| KafkaConsumer.GroupCheckedBeforeConnect | pkg/kafka/consumer.go:26-28 | Without a group, the outcome does not depend on the client factory: no client is created. |
| KafkaConsumer.ConsumeClaim | pkg/kafka/consumer.go:91-133 | Never marks more messages than it invoked the callback for, and never invokes the callback more often than there are events. |
| KafkaConsumer.Handle | pkg/kafka/consumer.go:106-125 | One message calls the callback once, with the key ("" when nil) and the timestamp. The event is the decoded value, or zero for a nil or undecodable value. The message is marked exactly when the callback succeeds. A decode failure is logged, and a callback failure is logged exactly when the message is not marked. |
| KafkaConsumer.ClaimCallsBackInOrder | pkg/kafka/consumer.go:99-119 | Every message delivered before the first closed-channel or session-done event reaches the callback, in channel order. Its key is "" when absent, and its event is the decoded value, or zero for a nil or undecodable value. The loop returns exactly when a stop event occurs. |
| KafkaConsumer.ClaimMarksSucceeded | pkg/kafka/consumer.go:119-125 | The marked messages are exactly the delivered messages whose callback succeeded, in delivery order. |
| KafkaConsumer.MarkedIffCallbackSucceeded | pkg/kafka/consumer.go:119-125 | A message is marked if and only if it was delivered before the stop and its callback succeeded. No message is marked more often than it was delivered. |
| KafkaConsumer.DecodeFailureStillCallsBack | pkg/kafka/consumer.go:111-119 | A message whose value fails to decode still reaches the callback, with the zero event, and the failure is logged. |
| KafkaConsumer.NothingAfterStop | pkg/kafka/consumer.go:99-131 | After a closed channel or a done session the loop has returned, and later events change nothing. |
| KafkaConsumer.Run | pkg/kafka/consumer.go:65-75 | The loop exits exactly when some `Consume` call returns the closed-group error, and right after the first such call. The log holds exactly the errors of the earlier calls, in order, and none of them is the closed-group error. |
| KafkaConsumer.AsWrittenConfigsCannotConsume | pkg/kafka/config.go:87-93 | `NewConsumer` refuses every config produced by the as-written pkg/kafka parse with `MissingGroup`. |
| KafkaConsumer.CorrectedConfigsCanConsume | pkg/kafka/consumer.go:26-28 | With the group copied, a resolved descriptor passes `NewConsumer`'s group check exactly when it names a non-empty group. Otherwise it is refused with `MissingGroup`. |
| AuConsumer.Run | pkg/aukafka/consumer.go:47-79 | The loop stops exactly when some poll reports the client closed. |
| AuConsumer.HandleRecord | pkg/aukafka/consumer.go:63-76 | A record reaches the callback exactly when its value is nil or decodes, with the key ("" when nil), the timestamp, and the decoded value or zero for nil. An undecodable record is logged instead. A callback failure is logged. At most one line is logged per record. |
| AuConsumer.EachRecord | pkg/aukafka/consumer.go:62-77 | A poll's records call back exactly once per decodable record, with at most one log line per record, and never stop the loop. |
| AuConsumer.EachRecordCallsBackDecodable | pkg/aukafka/consumer.go:62-77 | Within a poll, exactly the records whose value is nil or decodes reach the callback, in order. |
| AuConsumer.RunCallsBackDecodable | pkg/aukafka/consumer.go:50-78 | Across polls, exactly the decodable records fetched before the client closed reach the callback, in fetch order. |
| AuConsumer.CallbackErrorsDoNotStopProcessing | pkg/aukafka/consumer.go:74-76 | Which records reach the callback never depends on what earlier callbacks returned. |
| AuConsumer.UndecodableRecordSkipped | pkg/aukafka/consumer.go:67-72 | A record whose value fails to decode is logged and never reaches the callback. |
| AuConsumer.NilValueGivesZeroEvent | pkg/aukafka/consumer.go:63-68 | A nil value reaches the callback as the zero event, and an absent key as "". |
| AuConsumer.FetchErrorsLoggedNotBlocking | pkg/aukafka/consumer.go:58-62 | Fetch errors are logged, and the poll's records are handled exactly as if there were none. |
| AuConsumer.StopsAtClientClosed | pkg/aukafka/consumer.go:51-55 | After a closed-client poll, later polls change nothing. |
| Wire.KeyRoundTrip | pkg/kafka/producer_sync.go:44-47 | A producer's key arrives at a consumer's callback unchanged, and an absent key arrives as "". An absent key is sent as the nil slice. |
| Wire.KeyBytes | pkg/kafka/producer_sync.go:44-47 | An absent key is sent as the nil slice, and a present key as its bytes. |
| Wire.KeyString | pkg/kafka/consumer.go:107-110 | A nil key arrives at the callback as "", and any other key as its bytes. |
| Wire.EncodeValue | pkg/kafka/producer_sync.go:48-55 | An absent value becomes the nil slice without marshalling. A present value becomes its JSON bytes, and a marshal error is passed back unchanged. |
| Wire.BuildMessage | pkg/kafka/producer_sync.go:44-60 | The message goes to the given topic with the encoded key and value. A marshal error is returned instead of a message. |
| Wire.FirstErr | pkg/aukafka/producer.go:56-57 | Returns nil exactly when every produce result succeeded. Otherwise it returns the earliest error. |
| KafkaSyncProducer.NewSyncProducer | pkg/kafka/producer_sync.go:17-37 | Succeeds exactly when the client is created from a config that reports successes and carries the topic's credentials. The producer keeps the topic. |
| KafkaSyncProducer.Produce | pkg/kafka/producer_sync.go:39-66 | A marshal error is returned and nothing is sent. Otherwise the message goes to the producer's topic with the key's bytes. The payload is the value's marshalled JSON, or nil for a nil value, and the call returns exactly the send's error. |
| KafkaSyncProducer.NilValueNotMarshalled | pkg/kafka/producer_sync.go:48-55 | Producing a nil value never consults the marshaller and sends an empty payload. |
| KafkaAsyncProducer.CreateAsyncProducer | pkg/kafka/producer_async.go:31-51 | Succeeds exactly when the client is created from a config that reports successes and carries the topic's credentials. The producer keeps the topic. |
| KafkaAsyncProducer.NoopCallback | pkg/kafka/producer_async.go:14 | Has no effect. |
| KafkaAsyncProducer.LogErrorCallback | pkg/kafka/producer_async.go:18-22 | Logs exactly when the send's error is non-nil, and then logs that error. |
| KafkaAsyncProducer.Produce | pkg/kafka/producer_async.go:53-84 | A marshal error is returned at once, with nothing dispatched and no callback. Otherwise the call returns nil and dispatches to the producer's topic. The callback runs at most once: exactly once when it is non-nil, with the message and the send's error. |
| KafkaAsyncProducer.ReturnIgnoresSendOutcome | pkg/kafka/producer_async.go:77-83 | The call's return and the dispatched message do not depend on how the send turns out. |
| KafkaAsyncProducer.EncodingMatchesSyncProducer | pkg/kafka/producer_async.go:59-75 | The dispatched message is keyed and encoded exactly as the synchronous producer's. |
| KafkaAsyncProducer.LogErrorCallbackWarnsOnFailure | pkg/kafka/producer_async.go:78-81 | With the logging callback, a warning is logged exactly when the send failed. |
| AuProducer.ProduceSync | pkg/aukafka/producer.go:35-58 | A marshal error is returned before producing. Otherwise the record carries the key's bytes (nil when absent) and the JSON value (nil when absent), and the call returns the first produce error, or nil. |
| KafkaProducer.CreateProducer | pkg/kafka/producer.go:15-33 | Returns the client-creation error. On failure it returns the zero producer, and on success a client for the topic. |
| KafkaProducer.ProduceSync | pkg/kafka/producer.go:35-43 | The event is always marshalled, and a marshal error is returned before producing. The record carries only the JSON value, with no key, and the call returns the first produce error, or nil. |
| Delivery.SaramaRoundTrip | pkg/kafka/consumer.go:107-119 | A message from the synchronous producer, delivered back, reaches the claim loop's callback with the original key ("" when absent) and the original value (zero when absent). This requires a decoder that reads back what the marshaller writes. |
| Delivery.FranzRoundTrip | pkg/aukafka/consumer.go:63-74 | A record from the aukafka producer, fetched back, is decodable and reaches the polling loop's callback with the original key and value. |
| Delivery.ValueOnlyRoundTrip | pkg/kafka/producer.go:35-40 | A value-only record, fetched back, reaches the callback with key "" and the original event. |

## Left out

- Broker clients are not modelled. This covers sarama's consumer group and synchronous producer, the franz-go client, network connections, offset-commit persistence and rebalancing. Each appears only as an abstract parameter: `connect`, `send`, `produce`, the claim's event sequence, the polls, and the sequence of `Consume` returns.
- Goroutines, channels and `select` are not modelled. The consume loops are sequential folds, and termination is an explicit stop event in the input. The fire-and-forget send is run to completion and reported beside the call's return.
- `encoding/json` is not modelled; marshal and decode are abstract. On a decode failure the callback receives the zero event. Two effects of a failed or unusual decode are not modelled: a partially filled event on a type mismatch, and a nil event pointer for the JSON text `null`.
- The panic-recovering wrapper around the sarama `run` loop (pkg/kafka/consumer.go:58-63) is Go runtime machinery and is not modelled.
- The SCRAM client (pkg/aukafka/scramclient.go), the sarama tuning constants (pkg/kafka/sarama.go), the dependency-injection glue (pkg/kafka/acorn.go) and the logging adapters are not part of this model. The consumer loops' warning, error and info logs appear as typed notes.
- The per-poll debug line at pkg/aukafka/consumer.go:56 is not modelled; it only reports how many fetches arrived.
- `defaultTopicOptions` is not part of this model. For that reason the aukafka `CreateConsumer` and `CreateProducer` are left out. Note that `CreateConsumer` dereferences the consumer group without checking it.
- The sarama consumer's conversion of the timestamp to UTC is not modelled; timestamps pass through unchanged.
- The pkg/kafka `Config.Obtain` is left out. It parses the value under `config.KeyVaultSecretsConfig` (pkg/kafka/config.go:70), not under the `KAFKA_TOPICS_CONFIG` key that the configuration item at pkg/kafka/config.go:42-49 validates, and that key is defined in a package that is not part of this model.
- pkg/kafka's own `mergeConfigWithPreset`, which the sarama constructors call, is not part of this model. As a modelling choice they use the pkg/aukafka merge, which never fails, so the merge-error branches at pkg/kafka/consumer.go:31-33, pkg/kafka/producer_sync.go:23-25 and pkg/kafka/producer_async.go:37-39 are never taken in the model.
- `Validation.Validate`: the warning logged for each failing validator (pkg/kafka/config.go:60) is not modelled; only the joined error is.
- `Close` and `Stop` are left out; they only close the client and log.
- `Setup` and `Cleanup` are left out; they always return nil.
- Calling `ProduceSync` on the zero producer returned by a failed `CreateProducer` would dereference a nil client. This is not modelled; the franz-go produce call is a parameter.
- Contexts and their cancellation are represented only as the session-done event.
- Callbacks are pure functions of key, event and timestamp, so a callback that fails and later succeeds for the same record is not modelled. Redelivery after a rebalance is the broker's behaviour and is left out too.
- `ClientSettings.MergeConfigWithPreset`: the Go preset is updated in place and shared with the caller. The model returns the updated value instead, so the aliasing is not modelled.
- Go's nil/empty distinction is kept only for byte slices (`Wire.ByteSlice`) and pointers (`Option`). For maps, an `Obtain` failure leaves the map `None`.
- Error texts are not modelled. A `ConfigError` records the topic and the variable name only.

## Findings

| source | as written | input that shows it | evidently intended | confidence | as-written member | corrected member |
|---|---|---|---|---|---|---|
| pkg/aukafka/config.go:80-84 | In the literal-password branch, the password is looked up through `PasswordEnvVar`, which is nil in that branch. Every descriptor that supplies only `password` therefore panics, and so do `Obtain` and the configuration item's validator on a document holding one, unless the walk first reaches another descriptor that fails (`AuConfig.ObtainAsWritten`, `AuConfig.ConfigItems`, `AuConfig.OrderDecidesPanic`). | `{"t1":{"topic":"orders","brokers":["b:9092"],"username":"u","password":"secret","consumerGroup":"g","authType":"PLAIN"}}` (`AuConfig.LiteralPasswordCounterexample`) | Use the literal password, and report an error when it is empty. | high; not executed | AuConfig.ResolveAsWritten | AuConfig.Resolve |
| pkg/kafka/config.go:87-93 | The resolved config never receives `ConsumerGroup`, so `NewConsumer` refuses every parsed config (`KafkaConsumer.AsWrittenConfigsCannotConsume`). | `{"t1":{"topic":"orders","brokers":["b:9092"],"username":"u","passwordEnvVar":"ORDERS_PW","consumerGroup":"g","authType":"plain"}}` with `ORDERS_PW=secret` (`KafkaConfig.ConsumerGroupCounterexample`) | Copy the descriptor's consumer group. | high; not executed | KafkaConfig.ResolveAsWritten | KafkaConfig.Resolve |

=== FILE: aukafka_config.dfy ===
/**
 * Topic-config resolution of the franz-go based package: raw descriptors that
 * supply the secret through an environment variable or a literal field.
 */
module AuConfig {
  import opened Wrappers
  import opened Topics
  import Validation

  /** A descriptor as decoded from JSON; absent optional fields are `None`. */
  datatype RawTopicConfig = RawTopicConfig(
    topic: string,
    brokers: seq<string>,
    username: string,
    password: Option<string>,
    passwordEnvVar: Option<string>,
    consumerGroup: Option<string>,
    authType: string)

  /** The abstract JSON decoder: a document, or `None` when the text is malformed. */
  type Unmarshal = string -> Option<Document<RawTopicConfig>>

  /** Every field but the password is carried over from the descriptor. */
  predicate Copies(raw: RawTopicConfig, c: TopicConfig)
  {
    && c.topic == raw.topic
    && c.brokers == raw.brokers
    && c.username == raw.username
    && c.consumerGroup == raw.consumerGroup
    && c.authType == raw.authType
  }

  function WithPassword(raw: RawTopicConfig, password: string): TopicConfig
  {
    TopicConfig(raw.topic, raw.brokers, raw.username, password, raw.consumerGroup, raw.authType)
  }

  /**
   * Resolution of one descriptor with the literal-password branch reading the
   * literal field. A named environment variable takes precedence over a literal;
   * an empty secret or a missing one is an error.
   */
  function Resolve(raw: RawTopicConfig, env: string -> string): (e: Entry)
    ensures !e.Crash?
    ensures e.Resolved? ==> Copies(raw, e.config) && e.config.password != ""
    ensures raw.passwordEnvVar.Some? ==>
      && (e.Resolved? <==> env(raw.passwordEnvVar.value) != "")
      && (e.Resolved? ==> e.config.password == env(raw.passwordEnvVar.value))
      && (!e.Resolved? ==> e.error == EmptyEnvPassword(raw.topic, raw.passwordEnvVar.value))
    ensures raw.passwordEnvVar.None? && raw.password.Some? ==>
      && (e.Resolved? <==> raw.password.value != "")
      && (e.Resolved? ==> e.config.password == raw.password.value)
      && (!e.Resolved? ==> e.error == EmptyPassword(raw.topic))
    ensures raw.passwordEnvVar.None? && raw.password.None? ==> e == Invalid(NoPassword(raw.topic))
  {
    match (raw.passwordEnvVar, raw.password)
    case (Some(name), _) =>
      var password := env(name);
      if password == "" then Invalid(EmptyEnvPassword(raw.topic, name)) else Resolved(WithPassword(raw, password))
    case (None, Some(literal)) =>
      if literal == "" then Invalid(EmptyPassword(raw.topic)) else Resolved(WithPassword(raw, literal))
    case (None, None) =>
      Invalid(NoPassword(raw.topic))
  }

  /**
   * Resolution as the source writes it: the literal-password branch looks up the
   * environment variable through the absent `passwordEnvVar` pointer, which is a
   * nil dereference. Everywhere else it agrees with `Resolve`.
   */
  function ResolveAsWritten(raw: RawTopicConfig, env: string -> string): (e: Entry)
    ensures raw.passwordEnvVar.None? && raw.password.Some? ==> e == Crash
    ensures raw.passwordEnvVar.Some? || raw.password.None? ==> e == Resolve(raw, env)
  {
    if raw.passwordEnvVar.Some? then
      var password := env(raw.passwordEnvVar.value);
      if password == "" then Invalid(EmptyEnvPassword(raw.topic, raw.passwordEnvVar.value))
      else Resolved(WithPassword(raw, password))
    else if raw.password.Some? then
      Crash
    else
      Invalid(NoPassword(raw.topic))
  }

  /** A descriptor that supplies only a literal password. */
  predicate LiteralOnly(raw: RawTopicConfig)
  {
    raw.passwordEnvVar.None? && raw.password.Some?
  }

  /**
   * Parsing as written. It panics only on a document holding a literal-only
   * descriptor, and otherwise agrees with `ParseTopicConfigs`; in particular a
   * document whose every descriptor names a variable parses exactly as there,
   * and no literal-only descriptor ever resolves.
   */
  function ParseTopicConfigsAsWritten(text: string, unmarshal: Unmarshal, env: string -> string): (r: Parse)
    ensures unmarshal(text).None? ==> r == Rejected(Malformed)
    ensures !r.Panicked? ==> r == ParseTopicConfigs(text, unmarshal, env)
    ensures r.Panicked? ==>
      && unmarshal(text).Some?
      && exists k | k in unmarshal(text).value.entries :: LiteralOnly(unmarshal(text).value.entries[k])
    ensures unmarshal(text).Some? && (forall k | k in unmarshal(text).value.entries :: unmarshal(text).value.entries[k].passwordEnvVar.Some?) ==>
      r == ParseTopicConfigs(text, unmarshal, env)
    ensures r.Parsed? ==> forall k | k in unmarshal(text).value.entries ::
      unmarshal(text).value.entries[k].passwordEnvVar.Some?
  {
    var r := ParseDocument(unmarshal(text), ResolverAsWritten(env));
    if unmarshal(text).Some? then
      AsWrittenAgreesUnlessPanicked(unmarshal(text).value, env);
      r
    else
      r
  }

  function ResolverAsWritten(env: string -> string): RawTopicConfig -> Entry
  {
    (raw: RawTopicConfig) => ResolveAsWritten(raw, env)
  }

  function Resolver(env: string -> string): RawTopicConfig -> Entry
  {
    (raw: RawTopicConfig) => Resolve(raw, env)
  }

  /**
   * On a decoded document the parse as written panics only because of a
   * literal-only descriptor, and otherwise yields what the corrected parse does.
   */
  lemma AsWrittenAgreesUnlessPanicked(doc: Document<RawTopicConfig>, env: string -> string)
    ensures !ParseDocument(Some(doc), ResolverAsWritten(env)).Panicked? ==>
      ParseDocument(Some(doc), ResolverAsWritten(env)) == ParseDocument(Some(doc), Resolver(env))
    ensures ParseDocument(Some(doc), ResolverAsWritten(env)).Panicked? ==> exists k | k in doc.entries :: LiteralOnly(doc.entries[k])
    ensures ParseDocument(Some(doc), ResolverAsWritten(env)).Parsed? ==> forall k | k in doc.entries :: doc.entries[k].passwordEnvVar.Some?
  {
    var written, corrected := ResolverAsWritten(env), Resolver(env);
    AgreesUnlessPanicked(doc, written, corrected);
    var r := ParseDocument(Some(doc), written);
    if r.Parsed? {
      forall k | k in doc.entries ensures doc.entries[k].passwordEnvVar.Some? {
        assert written(doc.entries[k]).Resolved?;
      }
      ParsedAgree(doc, written, corrected);
    } else if r.Panicked? {
      var k :| k in doc.entries && !written(doc.entries[k]).Resolved? && r == Abort(written(doc.entries[k]));
      assert LiteralOnly(doc.entries[k]);
    }
  }

  /**
   * Parses the document of topic descriptors. A malformed document is an error;
   * otherwise every descriptor must resolve, and then the map has exactly the
   * document's keys, each mapped to its descriptor's fields and a non-empty
   * password. A single failing descriptor fails the whole call.
   */
  function ParseTopicConfigs(text: string, unmarshal: Unmarshal, env: string -> string): (r: Parse)
    ensures unmarshal(text).None? ==> r == Rejected(Malformed)
    ensures !r.Panicked?
    ensures unmarshal(text).Some? ==>
      (r.Parsed? <==> forall k | k in unmarshal(text).value.entries :: Resolve(unmarshal(text).value.entries[k], env).Resolved?)
    ensures r.Parsed? ==> unmarshal(text).Some? && r.configs.Keys == unmarshal(text).value.entries.Keys
    ensures r.Parsed? ==> forall k | k in r.configs ::
      Copies(unmarshal(text).value.entries[k], r.configs[k]) && r.configs[k].password != ""
    ensures r.Parsed? ==> forall k | k in r.configs ::
      var raw := unmarshal(text).value.entries[k];
      && (raw.passwordEnvVar.Some? ==> r.configs[k].password == env(raw.passwordEnvVar.value))
      && (raw.passwordEnvVar.None? ==> raw.password.Some? && r.configs[k].password == raw.password.value)
  {
    ParseDocument(unmarshal(text), Resolver(env))
  }

  /** What loading the configuration did: it stored a topic map (nil when `None`), or it panicked. */
  datatype Obtained = Loaded(topicConfigs: Option<map<string, TopicConfig>>) | Crashed

  /**
   * Loads the topic map from the configuration through the parse as written,
   * discarding the parse error: a rejected document leaves the map nil, and a
   * literal-only descriptor makes the load panic.
   */
  function ObtainAsWritten(getter: string -> string, unmarshal: Unmarshal, env: string -> string): (o: Obtained)
    ensures o.Crashed? <==> ParseTopicConfigsAsWritten(getter(KeyKafkaTopicsConfig), unmarshal, env).Panicked?
    ensures o.Loaded? ==> (o.topicConfigs.None? <==> ParseTopicConfigsAsWritten(getter(KeyKafkaTopicsConfig), unmarshal, env).Rejected?)
    ensures o.Loaded? && o.topicConfigs.Some? ==>
      o.topicConfigs.value == ParseTopicConfigs(getter(KeyKafkaTopicsConfig), unmarshal, env).configs
  {
    match ParseTopicConfigsAsWritten(getter(KeyKafkaTopicsConfig), unmarshal, env)
    case Parsed(configs) => Loaded(Some(configs))
    case Rejected(_) => Loaded(None)
    case Panicked => Crashed
  }

  /**
   * Loading with the corrected parse: it never panics, and the map is nil
   * exactly when the document fails to parse.
   */
  function Obtain(getter: string -> string, unmarshal: Unmarshal, env: string -> string): (o: Obtained)
    ensures o.Loaded?
    ensures o.topicConfigs.None? <==> !ParseTopicConfigs(getter(KeyKafkaTopicsConfig), unmarshal, env).Parsed?
    ensures o.topicConfigs.Some? ==> forall k | k in o.topicConfigs.value :: o.topicConfigs.value[k].password != ""
    ensures o.topicConfigs.Some? ==> o.topicConfigs.value == ParseTopicConfigs(getter(KeyKafkaTopicsConfig), unmarshal, env).configs
  {
    match ParseTopicConfigs(getter(KeyKafkaTopicsConfig), unmarshal, env)
    case Parsed(configs) => Loaded(Some(configs))
    case _ => Loaded(None)
  }

  /** Whenever the load as written does not panic, it stores what the corrected load stores. */
  lemma ObtainAgreesUnlessCrashed(getter: string -> string, unmarshal: Unmarshal, env: string -> string)
    ensures ObtainAsWritten(getter, unmarshal, env).Loaded? ==> ObtainAsWritten(getter, unmarshal, env) == Obtain(getter, unmarshal, env)
  {
  }

  /**
   * The package's configuration item, validated through the parse as written:
   * it passes exactly when that parse succeeds and panics exactly when it does.
   */
  function ConfigItems(unmarshal: Unmarshal, env: string -> string): (items: seq<Validation.ConfigItem<ConfigError>>)
    ensures |items| == 1 && items[0].key == KeyKafkaTopicsConfig
    ensures Validation.Passes(items[0]) <==> ParseTopicConfigsAsWritten(env(KeyKafkaTopicsConfig), unmarshal, env).Parsed?
    ensures Validation.Panicking(items[0]) <==> ParseTopicConfigsAsWritten(env(KeyKafkaTopicsConfig), unmarshal, env).Panicked?
    ensures !Validation.Panicking(items[0]) ==>
      Validation.CheckOf(items[0]) == Verdict(ParseTopicConfigs(env(KeyKafkaTopicsConfig), unmarshal, env))
  {
    Topics.ConfigItems((text: string) => ParseTopicConfigsAsWritten(text, unmarshal, env), env)
  }

  /** A named environment variable wins over a literal password, whatever the literal. */
  lemma EnvVarTakesPrecedence(raw: RawTopicConfig, env: string -> string, literal: Option<string>)
    requires raw.passwordEnvVar.Some?
    ensures Resolve(raw.(password := literal), env) == Resolve(raw, env)
  {
  }

  /** One descriptor whose secret cannot be resolved empties the whole result. */
  lemma OneBadEntryFailsAll(text: string, unmarshal: Unmarshal, env: string -> string, key: string)
    requires unmarshal(text).Some? && key in unmarshal(text).value.entries
    requires !Resolve(unmarshal(text).value.entries[key], env).Resolved?
    ensures ParseTopicConfigs(text, unmarshal, env).Rejected?
  {
  }

  /** A descriptor supplying only a literal password crashes the parse as written. */
  lemma LiteralOnlyNeverParsesAsWritten(text: string, unmarshal: Unmarshal, env: string -> string, key: string)
    requires unmarshal(text).Some? && key in unmarshal(text).value.entries
    requires LiteralOnly(unmarshal(text).value.entries[key])
    ensures !ParseTopicConfigsAsWritten(text, unmarshal, env).Parsed?
  {
  }

  /** A one-topic document with a literal password "secret" and no environment variable. */
  function LiteralDocument(): Document<RawTopicConfig>
  {
    var raw := RawTopicConfig("orders", ["b:9092"], "u", Some("secret"), None, Some("g"), "PLAIN");
    RawDocument(map["t1" := raw], ["t1"])
  }

  /** On that document the parse as written panics; the corrected one yields the literal. */
  lemma LiteralPasswordCounterexample(env: string -> string)
    ensures ParseTopicConfigsAsWritten("", _ => Some(LiteralDocument()), env) == Panicked
    ensures ParseTopicConfigs("", _ => Some(LiteralDocument()), env).Parsed?
    ensures ParseTopicConfigs("", _ => Some(LiteralDocument()), env).configs["t1"].password == "secret"
  {
    var doc := LiteralDocument();
    assert doc.order == ["t1"];
  }

  /** A literal-only descriptor, "a", and one with no password at all, "b", visited in `order`. */
  function TwoDescriptors(order: seq<string>): Document<RawTopicConfig>
    requires order == ["a", "b"] || order == ["b", "a"]
  {
    var a := RawTopicConfig("orders", [], "u", Some("secret"), None, None, "PLAIN");
    var b := RawTopicConfig("billing", [], "u", None, None, None, "PLAIN");
    var entries := map["a" := a, "b" := b];
    assert entries.Keys == {"a", "b"};
    RawDocument(entries, order)
  }

  /**
   * The iteration order decides between an error and a panic: visiting the
   * literal-only descriptor first panics, while visiting the other one first
   * rejects the document before the panic is reached.
   */
  lemma OrderDecidesPanic(env: string -> string)
    ensures ParseTopicConfigsAsWritten("", _ => Some(TwoDescriptors(["a", "b"])), env) == Panicked
    ensures ParseTopicConfigsAsWritten("", _ => Some(TwoDescriptors(["b", "a"])), env) == Rejected(NoPassword("billing"))
    ensures ObtainAsWritten(_ => "", _ => Some(TwoDescriptors(["a", "b"])), env) == Crashed
    ensures ObtainAsWritten(_ => "", _ => Some(TwoDescriptors(["b", "a"])), env) == Loaded(None)
  {
    var ab, ba := TwoDescriptors(["a", "b"]), TwoDescriptors(["b", "a"]);
    assert Collect(ab.entries, ab.order, ResolverAsWritten(env)) == Panicked;
    assert Collect(ba.entries, ba.order, ResolverAsWritten(env)) == Rejected(NoPassword("billing"));
  }

  /** The environment-variable scenario: ORDERS_PW=secret resolves to that password. */
  lemma EnvVarScenario(env: string -> string)
    requires env("ORDERS_PW") == "secret"
    ensures var raw := RawTopicConfig("orders", ["b:9092"], "u", None, Some("ORDERS_PW"), None, "plain");
      Resolve(raw, env) == Resolved(TopicConfig("orders", ["b:9092"], "u", "secret", None, "plain"))
  {
  }
}

=== FILE: aukafka_consumer.dfy ===
/**
 * The franz-go based consumer's polling loop: each poll yields fetch errors and
 * records, or reports that the client was closed. The loop is a fold over the
 * polls in the order they return.
 */
module AuConsumer {
  import opened Wrappers
  import opened Wire
  import Seqs

  /** A fetched record as franz-go delivers it. */
  datatype FetchedRecord = FetchedRecord(topic: string, partition: int, offset: int, timestamp: int, key: ByteSlice, value: ByteSlice)

  /** A per-partition fetch error. */
  datatype FetchError = FetchError(topic: string, partition: int)

  /** What one poll returns. */
  datatype Poll = Fetches(errors: seq<FetchError>, records: seq<FetchedRecord>) | ClientClosed

  /** What the loop logs. */
  datatype Note = FetchFailed(topic: string, partition: int) | UnmarshalFailed(offset: int) | CallbackFailed(offset: int) | ConsumerStopped

  /** The loop's observable behaviour: callback invocations, log, and whether it stopped. */
  datatype PollRun<E> = PollRun(invocations: seq<Invocation<E>>, notes: seq<Note>, stopped: bool)

  /** The record's value is nil, or decodes. */
  predicate Decodable<E>(r: FetchedRecord, decode: Bytes -> Option<E>)
  {
    r.value.Nil? || decode(r.value.bytes).Some?
  }

  /** The callback arguments for a decodable record; a nil value gives the zero event. */
  function Invoke<E>(r: FetchedRecord, decode: Bytes -> Option<E>, zero: E): Invocation<E>
  {
    var event := match r.value
      case Nil => zero
      case Slice(b) => decode(b).GetOr(zero);
    Invocation(KeyString(r.key), event, r.timestamp)
  }

  /** One record: an undecodable value is logged and skipped; otherwise call back, logging a failure. */
  function HandleRecord<E>(r: FetchedRecord, decode: Bytes -> Option<E>, zero: E, callback: Callback<E>): (h: PollRun<E>)
    ensures |h.invocations| == (if Decodable(r, decode) then 1 else 0)
    ensures Decodable(r, decode) ==> h.invocations[0].key == KeyString(r.key) && h.invocations[0].timestamp == r.timestamp
    ensures r.value.Nil? ==> h.invocations[0].event == zero
    ensures r.value.Slice? && Decodable(r, decode) ==> h.invocations[0].event == decode(r.value.bytes).value
    ensures UnmarshalFailed(r.offset) in h.notes <==> !Decodable(r, decode)
    ensures CallbackFailed(r.offset) in h.notes <==>
      Decodable(r, decode) && !callback(h.invocations[0].key, h.invocations[0].event, h.invocations[0].timestamp)
    ensures |h.notes| <= 1 && !h.stopped
  {
    if !Decodable(r, decode) then PollRun([], [UnmarshalFailed(r.offset)], false)
    else
      var inv := Invoke(r, decode, zero);
      PollRun([inv], if callback(inv.key, inv.event, inv.timestamp) then [] else [CallbackFailed(r.offset)], false)
  }

  /** Every record of one poll, in order. */
  function EachRecord<E>(records: seq<FetchedRecord>, decode: Bytes -> Option<E>, zero: E, callback: Callback<E>): (each: PollRun<E>)
    ensures |each.invocations| <= |records| && |each.notes| <= |records|
    ensures |each.invocations| == |Seqs.Filter((r: FetchedRecord) => Decodable(r, decode), records)|
    ensures !each.stopped
    decreases |records|
  {
    if |records| == 0 then PollRun([], [], false)
    else
      var h := HandleRecord(records[0], decode, zero, callback);
      var rest := EachRecord(records[1..], decode, zero, callback);
      PollRun(h.invocations + rest.invocations, h.notes + rest.notes, false)
  }

  /** The polling loop: stop at a closed client, else log fetch errors and handle every record. */
  function Run<E>(polls: seq<Poll>, decode: Bytes -> Option<E>, zero: E, callback: Callback<E>): (run: PollRun<E>)
    ensures run.stopped <==> ClientClosed in polls
    decreases |polls|
  {
    if |polls| == 0 then PollRun([], [], false)
    else
      match polls[0]
      case ClientClosed => PollRun([], [ConsumerStopped], true)
      case Fetches(errs, recs) =>
        var each := EachRecord(recs, decode, zero, callback);
        var rest := Run(polls[1..], decode, zero, callback);
        assert polls == [polls[0]] + polls[1..];
        PollRun(each.invocations + rest.invocations,
                Seqs.Map((e: FetchError) => FetchFailed(e.topic, e.partition), errs) + each.notes + rest.notes,
                rest.stopped)
  }

  /** The records of every poll before the first closed-client report, in order. */
  function ProcessedRecords(polls: seq<Poll>): seq<FetchedRecord>
    decreases |polls|
  {
    if |polls| == 0 || polls[0].ClientClosed? then [] else polls[0].records + ProcessedRecords(polls[1..])
  }

  /** Within a poll, exactly the decodable records reach the callback, in order. */
  lemma {:induction false} EachRecordCallsBackDecodable<E>(records: seq<FetchedRecord>, decode: Bytes -> Option<E>, zero: E, callback: Callback<E>)
    ensures EachRecord(records, decode, zero, callback).invocations
      == Seqs.Map((r: FetchedRecord) => Invoke(r, decode, zero), Seqs.Filter((r: FetchedRecord) => Decodable(r, decode), records))
    decreases |records|
  {
    if |records| > 0 {
      EachRecordCallsBackDecodable(records[1..], decode, zero, callback);
      var f := (r: FetchedRecord) => Invoke(r, decode, zero);
      var p := (r: FetchedRecord) => Decodable(r, decode);
      Seqs.MapAppend(f, if p(records[0]) then [records[0]] else [], Seqs.Filter(p, records[1..]));
    }
  }

  /**
   * Across polls, exactly the decodable records fetched before the client was
   * closed reach the callback, in fetch order: undecodable records are
   * skipped, and fetch errors and failed callbacks do not stop the loop.
   */
  lemma {:induction false} RunCallsBackDecodable<E>(polls: seq<Poll>, decode: Bytes -> Option<E>, zero: E, callback: Callback<E>)
    ensures Run(polls, decode, zero, callback).invocations
      == Seqs.Map((r: FetchedRecord) => Invoke(r, decode, zero), Seqs.Filter((r: FetchedRecord) => Decodable(r, decode), ProcessedRecords(polls)))
    decreases |polls|
  {
    if |polls| > 0 && polls[0].Fetches? {
      var f := (r: FetchedRecord) => Invoke(r, decode, zero);
      var p := (r: FetchedRecord) => Decodable(r, decode);
      RunCallsBackDecodable(polls[1..], decode, zero, callback);
      EachRecordCallsBackDecodable(polls[0].records, decode, zero, callback);
      Seqs.FilterAppend(p, polls[0].records, ProcessedRecords(polls[1..]));
      Seqs.MapAppend(f, Seqs.Filter(p, polls[0].records), Seqs.Filter(p, ProcessedRecords(polls[1..])));
    }
  }

  /** Which records reach the callback never depends on what earlier callbacks answered. */
  lemma CallbackErrorsDoNotStopProcessing<E>(polls: seq<Poll>, decode: Bytes -> Option<E>, zero: E, cb1: Callback<E>, cb2: Callback<E>)
    ensures Run(polls, decode, zero, cb1).invocations == Run(polls, decode, zero, cb2).invocations
  {
    RunCallsBackDecodable(polls, decode, zero, cb1);
    RunCallsBackDecodable(polls, decode, zero, cb2);
  }

  /** A record with an undecodable value is logged and never reaches the callback. */
  lemma UndecodableRecordSkipped<E>(r: FetchedRecord, decode: Bytes -> Option<E>, zero: E, callback: Callback<E>)
    requires r.value.Slice? && decode(r.value.bytes).None?
    ensures EachRecord([r], decode, zero, callback) == PollRun([], [UnmarshalFailed(r.offset)], false)
  {
  }

  /** A nil value reaches the callback as the zero event; an absent key as the empty string. */
  lemma NilValueGivesZeroEvent<E>(r: FetchedRecord, decode: Bytes -> Option<E>, zero: E, callback: Callback<E>)
    requires r.value.Nil?
    ensures EachRecord([r], decode, zero, callback).invocations == [Invocation(KeyString(r.key), zero, r.timestamp)]
    ensures r.key.Nil? ==> EachRecord([r], decode, zero, callback).invocations[0].key == []
  {
  }

  /** Fetch errors are logged, and the poll's records are handled as if there were none. */
  lemma FetchErrorsLoggedNotBlocking<E>(errs: seq<FetchError>, recs: seq<FetchedRecord>, more: seq<Poll>,
                                        decode: Bytes -> Option<E>, zero: E, callback: Callback<E>)
    ensures Run([Fetches(errs, recs)] + more, decode, zero, callback).invocations
      == Run([Fetches([], recs)] + more, decode, zero, callback).invocations
    ensures forall i | 0 <= i < |errs| ::
      FetchFailed(errs[i].topic, errs[i].partition) in Run([Fetches(errs, recs)] + more, decode, zero, callback).notes
  {
    assert ([Fetches(errs, recs)] + more)[1..] == more;
    assert ([Fetches([], recs)] + more)[1..] == more;
  }

  /** Once a poll reports the client closed, the loop stops and later polls are never seen. */
  lemma {:induction false} StopsAtClientClosed<E>(polls: seq<Poll>, more: seq<Poll>, decode: Bytes -> Option<E>, zero: E, callback: Callback<E>)
    requires ClientClosed in polls
    ensures Run(polls + more, decode, zero, callback) == Run(polls, decode, zero, callback)
    decreases |polls|
  {
    assert (polls + more)[0] == polls[0];
    if polls[0].Fetches? {
      assert (polls + more)[1..] == polls[1..] + more;
      assert polls == [polls[0]] + polls[1..];
      StopsAtClientClosed(polls[1..], more, decode, zero, callback);
    }
  }
}

=== FILE: aukafka_producer.dfy ===
/** The franz-go producer of the aukafka package: optional key and value, synchronous produce. */
module AuProducer {
  import opened Wrappers
  import opened Wire

  /**
   * Produces one record. `produce` stands for the client's synchronous produce
   * and answers one result per record. A marshal error is returned before
   * anything is produced; otherwise the call returns the first error among the
   * results, or nil.
   */
  function ProduceSync<V, Err>(key: Option<Bytes>, value: Option<V>, marshal: V -> Result<Bytes, Err>,
                               produce: Record -> seq<Option<Err>>): (r: Produced<Err>)
    ensures r.dispatched.None? <==> value.Some? && marshal(value.value).Failure?
    ensures r.dispatched.None? ==> r.error == Some(marshal(value.value).error)
    ensures r.dispatched.Some? ==>
      && r.dispatched.value.key == KeyBytes(key)
      && (value.None? ==> r.dispatched.value.value == Nil)
      && (value.Some? ==> r.dispatched.value.value == Slice(marshal(value.value).value))
    ensures r.dispatched.Some? ==>
      && (r.error.None? <==> forall i | 0 <= i < |produce(r.dispatched.value)| :: produce(r.dispatched.value)[i].None?)
      && r.error == FirstErr(produce(r.dispatched.value))
  {
    match EncodeValue(value, marshal)
    case Failure(e) => Produced(None, Some(e))
    case Success(v) =>
      var record := Record(KeyBytes(key), v);
      Produced(Some(record), FirstErr(produce(record)))
  }
}

=== FILE: client_settings.dfy ===
/**
 * The part of a sarama client configuration this code touches: the four SASL
 * credential settings and the producer's return-successes switch. Every other
 * setting is kept, opaquely, in `others`.
 */
module ClientSettings {
  import opened Wrappers
  import opened Topics

  datatype SaslSettings = SaslSettings(
    enable: bool,
    user: string,
    password: string,
    mechanism: string,
    others: map<string, string>)

  datatype ClientConfig = ClientConfig(
    sasl: SaslSettings,
    returnSuccesses: bool,
    others: map<string, string>)

  /** sarama's defaults for the tracked settings: SASL off, no credentials, no success reports. */
  function NewConfig(): (c: ClientConfig)
    ensures !c.sasl.enable && !c.returnSuccesses
  {
    ClientConfig(SaslSettings(false, "", "", "", map[]), false, map[])
  }

  /** SASL is on and carries the topic's username, password and auth type as mechanism. */
  predicate CarriesCredentials(c: ClientConfig, t: TopicConfig)
  {
    && c.sasl.enable
    && c.sasl.user == t.username
    && c.sasl.password == t.password
    && c.sasl.mechanism == t.authType
  }

  /** `a` and `b` agree on every setting except the four SASL credential settings. */
  predicate SameApartFromCredentials(a: ClientConfig, b: ClientConfig)
  {
    && a.returnSuccesses == b.returnSuccesses
    && a.others == b.others
    && a.sasl.others == b.sasl.others
  }

  /**
   * Sets the topic's credentials on the preset, or on a fresh default config
   * when there is no preset; nothing else changes, and the error is always nil.
   * (The Go preset is updated in place; here the updated value is returned.)
   */
  function MergeConfigWithPreset(t: TopicConfig, preset: Option<ClientConfig>): (r: Result<ClientConfig, string>)
    ensures r.Success?
    ensures CarriesCredentials(r.value, t)
    ensures SameApartFromCredentials(r.value, preset.GetOr(NewConfig()))
  {
    var base := if preset.Some? then preset.value else NewConfig();
    Success(base.(sasl := base.sasl.(user := t.username, password := t.password, enable := true, mechanism := t.authType)))
  }

  /** Merging the same topic into an already merged config changes nothing. */
  lemma MergeIdempotent(t: TopicConfig, preset: Option<ClientConfig>)
    ensures var once := MergeConfigWithPreset(t, preset).value;
      MergeConfigWithPreset(t, Some(once)).value == once
  {
  }

  /**
   * The client config both sarama producer constructors build: the merged
   * config with success reports forced on, as sarama's synchronous producer requires.
   */
  function ProducerClientConfig(t: TopicConfig, preset: Option<ClientConfig>): (c: ClientConfig)
    ensures c.returnSuccesses
    ensures CarriesCredentials(c, t)
    ensures c.others == preset.GetOr(NewConfig()).others
    ensures c.sasl.others == preset.GetOr(NewConfig()).sasl.others
  {
    MergeConfigWithPreset(t, preset).value.(returnSuccesses := true)
  }
}

=== FILE: delivery.dfy ===
/**
 * Producer to consumer: what a producer hands to the broker, delivered back
 * unchanged, reaches a consumer's callback with the original key (empty when
 * absent) and the original value, given a decoder that reads back what the
 * marshaller writes.
 */
module Delivery {
  import opened Wrappers
  import opened Wire
  import KafkaSyncProducer
  import KafkaConsumer
  import AuProducer
  import AuConsumer
  import KafkaProducer

  /** Through sarama: the synchronous producer's message, consumed by the claim loop. */
  lemma SaramaRoundTrip<V, Err>(p: KafkaSyncProducer.SyncProducer, key: Option<Bytes>, value: Option<V>,
                                marshal: V -> Result<Bytes, Err>, send: ProducerMessage -> Option<Err>,
                                decode: Bytes -> Option<V>, zero: V, offset: int, timestamp: int)
    requires value.Some? ==> RoundTrips(marshal, decode, value.value)
    ensures var sent := KafkaSyncProducer.Produce(p, key, value, marshal, send);
      && sent.dispatched.Some?
      && var m := sent.dispatched.value;
         var delivered := KafkaConsumer.ConsumerMessage(m.topic, offset, timestamp, m.key, m.value);
         && !KafkaConsumer.Undecodable(delivered, decode)
         && KafkaConsumer.InvocationFor(delivered, decode, zero) == Invocation(key.GetOr([]), value.GetOr(zero), timestamp)
  {
  }

  /** Through franz-go: the aukafka producer's record, consumed by the polling loop. */
  lemma FranzRoundTrip<V, Err>(key: Option<Bytes>, value: Option<V>, marshal: V -> Result<Bytes, Err>,
                               produce: Record -> seq<Option<Err>>, decode: Bytes -> Option<V>, zero: V,
                               topic: string, partition: int, offset: int, timestamp: int)
    requires value.Some? ==> RoundTrips(marshal, decode, value.value)
    ensures var sent := AuProducer.ProduceSync(key, value, marshal, produce);
      && sent.dispatched.Some?
      && var rec := sent.dispatched.value;
         var fetched := AuConsumer.FetchedRecord(topic, partition, offset, timestamp, rec.key, rec.value);
         && AuConsumer.Decodable(fetched, decode)
         && AuConsumer.Invoke(fetched, decode, zero) == Invocation(key.GetOr([]), value.GetOr(zero), timestamp)
  {
  }

  /** The value-only producer's record arrives with the empty key and the original event. */
  lemma ValueOnlyRoundTrip<V, Err>(event: V, marshal: V -> Result<Bytes, Err>, produce: Record -> seq<Option<Err>>,
                                   decode: Bytes -> Option<V>, zero: V, topic: string, partition: int, offset: int, timestamp: int)
    requires RoundTrips(marshal, decode, event)
    ensures var sent := KafkaProducer.ProduceSync(event, marshal, produce);
      && sent.dispatched.Some?
      && var rec := sent.dispatched.value;
         var fetched := AuConsumer.FetchedRecord(topic, partition, offset, timestamp, rec.key, rec.value);
         && AuConsumer.Decodable(fetched, decode)
         && AuConsumer.Invoke(fetched, decode, zero) == Invocation([], event, timestamp)
  {
  }
}

=== FILE: kafka_config.dfy ===
/**
 * Topic-config resolution of the sarama based package: the secret always comes
 * from a named environment variable, and the configuration item is validated by
 * joining the failures of every validator.
 */
module KafkaConfig {
  import opened Wrappers
  import opened Topics
  import Validation

  /** A descriptor as decoded from JSON; absent string fields decode as "". */
  datatype RawTopicConfig = RawTopicConfig(
    topic: string,
    brokers: seq<string>,
    username: string,
    passwordEnvVar: string,
    consumerGroup: string,
    authType: string)

  /** The abstract JSON decoder: a document, or `None` when the text is malformed. */
  type Unmarshal = string -> Option<Document<RawTopicConfig>>

  /** Topic, brokers, username and auth type are carried over from the descriptor. */
  predicate CopiesSharedFields(raw: RawTopicConfig, c: TopicConfig)
  {
    && c.topic == raw.topic
    && c.brokers == raw.brokers
    && c.username == raw.username
    && c.authType == raw.authType
  }

  /**
   * Resolution as the source writes it: the password is looked up through the
   * named variable (an absent name looks up ""), an empty result is an error,
   * and the consumer group is never copied.
   */
  function ResolveAsWritten(raw: RawTopicConfig, env: string -> string): (e: Entry)
    ensures !e.Crash?
    ensures e.Resolved? <==> env(raw.passwordEnvVar) != ""
    ensures e.Resolved? ==>
      && CopiesSharedFields(raw, e.config)
      && e.config.password == env(raw.passwordEnvVar)
      && e.config.consumerGroup.None?
    ensures !e.Resolved? ==> e.error == EmptyEnvPassword(raw.topic, raw.passwordEnvVar)
  {
    var password := env(raw.passwordEnvVar);
    if password == "" then Invalid(EmptyEnvPassword(raw.topic, raw.passwordEnvVar))
    else Resolved(TopicConfig(raw.topic, raw.brokers, raw.username, password, None, raw.authType))
  }

  /**
   * Resolution with the consumer group copied: it succeeds and fails exactly
   * where `ResolveAsWritten` does, and differs only in carrying the group.
   */
  function Resolve(raw: RawTopicConfig, env: string -> string): (e: Entry)
    ensures e.Resolved? <==> ResolveAsWritten(raw, env).Resolved?
    ensures e.Resolved? ==> e.config == ResolveAsWritten(raw, env).config.(consumerGroup := Some(raw.consumerGroup))
    ensures !e.Resolved? ==> e == ResolveAsWritten(raw, env)
  {
    var password := env(raw.passwordEnvVar);
    if password == "" then Invalid(EmptyEnvPassword(raw.topic, raw.passwordEnvVar))
    else Resolved(TopicConfig(raw.topic, raw.brokers, raw.username, password, Some(raw.consumerGroup), raw.authType))
  }

  /**
   * Parsing as written: it accepts exactly the documents whose every variable
   * looks up non-empty, and every config it produces lacks a consumer group.
   */
  function ParseTopicConfigsAsWritten(text: string, unmarshal: Unmarshal, env: string -> string): (r: Parse)
    ensures unmarshal(text).None? ==> r == Rejected(Malformed)
    ensures !r.Panicked?
    ensures unmarshal(text).Some? ==>
      (r.Parsed? <==> forall k | k in unmarshal(text).value.entries :: env(unmarshal(text).value.entries[k].passwordEnvVar) != "")
    ensures r.Parsed? ==> unmarshal(text).Some? && r.configs.Keys == unmarshal(text).value.entries.Keys
    ensures r.Parsed? ==> forall k | k in r.configs ::
      var raw := unmarshal(text).value.entries[k];
      && CopiesSharedFields(raw, r.configs[k])
      && r.configs[k].password == env(raw.passwordEnvVar) != ""
      && r.configs[k].consumerGroup.None?
  {
    ParseDocument(unmarshal(text), (raw: RawTopicConfig) => ResolveAsWritten(raw, env))
  }

  /**
   * Parses the document of topic descriptors: a malformed document is an error;
   * otherwise every descriptor's variable must look up to a non-empty password,
   * and then the map has exactly the document's keys with each descriptor's
   * fields, its looked-up password and its consumer group.
   */
  function ParseTopicConfigs(text: string, unmarshal: Unmarshal, env: string -> string): (r: Parse)
    ensures unmarshal(text).None? ==> r == Rejected(Malformed)
    ensures !r.Panicked?
    ensures unmarshal(text).Some? ==>
      (r.Parsed? <==> forall k | k in unmarshal(text).value.entries :: env(unmarshal(text).value.entries[k].passwordEnvVar) != "")
    ensures r.Parsed? ==> unmarshal(text).Some? && r.configs.Keys == unmarshal(text).value.entries.Keys
    ensures r.Parsed? ==> forall k | k in r.configs ::
      var raw := unmarshal(text).value.entries[k];
      && CopiesSharedFields(raw, r.configs[k])
      && r.configs[k].password == env(raw.passwordEnvVar) != ""
      && r.configs[k].consumerGroup == Some(raw.consumerGroup)
  {
    ParseDocument(unmarshal(text), (raw: RawTopicConfig) => Resolve(raw, env))
  }

  /**
   * The two parses accept the same documents, and their maps differ only in
   * the consumer group, which only the corrected parse carries.
   */
  lemma AsWrittenDropsOnlyTheGroup(text: string, unmarshal: Unmarshal, env: string -> string)
    ensures ParseTopicConfigsAsWritten(text, unmarshal, env).Parsed? <==> ParseTopicConfigs(text, unmarshal, env).Parsed?
    ensures ParseTopicConfigs(text, unmarshal, env).Parsed? ==>
      var written, corrected := ParseTopicConfigsAsWritten(text, unmarshal, env).configs, ParseTopicConfigs(text, unmarshal, env).configs;
      && written.Keys == corrected.Keys
      && forall k | k in corrected :: written[k] == corrected[k].(consumerGroup := None)
  {
  }

  /** Whenever the parse as written rejects a document, the corrected parse rejects it with the same error. */
  lemma AsWrittenRejectsAlike(text: string, unmarshal: Unmarshal, env: string -> string)
    ensures ParseTopicConfigsAsWritten(text, unmarshal, env).Rejected? ==>
      ParseTopicConfigs(text, unmarshal, env) == ParseTopicConfigsAsWritten(text, unmarshal, env)
  {
    if unmarshal(text).Some? {
      AgreesUnlessPanicked(unmarshal(text).value,
        (raw: RawTopicConfig) => ResolveAsWritten(raw, env), (raw: RawTopicConfig) => Resolve(raw, env));
    }
  }

  /**
   * The package's configuration item, validated through the parse as written:
   * it never panics, and passes exactly when the document parses.
   */
  function ConfigItems(unmarshal: Unmarshal, env: string -> string): (items: seq<Validation.ConfigItem<ConfigError>>)
    ensures |items| == 1 && items[0].key == KeyKafkaTopicsConfig
    ensures !Validation.Panicking(items[0])
    ensures Validation.Passes(items[0]) <==> ParseTopicConfigsAsWritten(env(KeyKafkaTopicsConfig), unmarshal, env).Parsed?
    ensures !Validation.Passes(items[0]) ==>
      Validation.CheckOf(items[0]) == Validation.Reports(ParseTopicConfigsAsWritten(env(KeyKafkaTopicsConfig), unmarshal, env).error)
  {
    Topics.ConfigItems((text: string) => ParseTopicConfigsAsWritten(text, unmarshal, env), env)
  }

  /**
   * Validates the configuration by running every item's validator: nil exactly
   * when the topic document parses, otherwise the joined error holds that
   * document's one parse error.
   */
  method Validate(unmarshal: Unmarshal, env: string -> string) returns (joined: Option<seq<ConfigError>>)
    ensures joined.None? <==> ParseTopicConfigsAsWritten(env(KeyKafkaTopicsConfig), unmarshal, env).Parsed?
    ensures joined.Some? ==> joined.value == [ParseTopicConfigsAsWritten(env(KeyKafkaTopicsConfig), unmarshal, env).error]
  {
    var items := ConfigItems(unmarshal, env);
    var outcome := Validation.Validate(items);
    assert items[..|items| - 1] == [];
    joined := outcome.joined;
  }

  /** A one-topic document whose descriptor names consumer group "g". */
  function GroupDocument(): Document<RawTopicConfig>
  {
    var raw := RawTopicConfig("orders", ["b:9092"], "u", "ORDERS_PW", "g", "plain");
    RawDocument(map["t1" := raw], ["t1"])
  }

  /** On that document the parse as written drops the group; the corrected one keeps it. */
  lemma ConsumerGroupCounterexample(env: string -> string)
    requires env("ORDERS_PW") == "secret"
    ensures ParseTopicConfigsAsWritten("", _ => Some(GroupDocument()), env).Parsed?
    ensures ParseTopicConfigsAsWritten("", _ => Some(GroupDocument()), env).configs["t1"].consumerGroup == None
    ensures ParseTopicConfigs("", _ => Some(GroupDocument()), env).configs["t1"].consumerGroup == Some("g")
  {
    var doc := GroupDocument();
    assert doc.order == ["t1"];
  }
}

=== FILE: kafka_consumer.dfy ===
/**
 * The sarama based consumer: the consumer-group check at construction, the
 * per-claim message loop, and the outer loop that re-enters the group until the
 * group is closed. The claim loop is a fold over the events its `select`
 * observes, in the order it observes them.
 */
module KafkaConsumer {
  import opened Wrappers
  import opened Wire
  import opened Topics
  import opened ClientSettings
  import KafkaConfig
  import Seqs

  datatype ConsumerError<CErr> = MissingGroup | ClientFailed(cause: CErr)

  /** A started consumer: its topic config, consumer group and client config. */
  datatype Consumer = Consumer(config: TopicConfig, group: string, clientConfig: ClientConfig)

  /** The config names a non-empty consumer group. */
  predicate HasGroup(cfg: TopicConfig)
  {
    cfg.consumerGroup.Some? && cfg.consumerGroup.value != ""
  }

  /**
   * Builds a consumer. `connect(brokers, group, clientConfig)` stands for
   * creating sarama's consumer-group client and answers its error, if any.
   * A missing or empty group is refused before any client is created.
   */
  function NewConsumer<CErr>(cfg: TopicConfig, preset: Option<ClientConfig>,
                             connect: (seq<string>, string, ClientConfig) -> Option<CErr>): (r: Result<Consumer, ConsumerError<CErr>>)
    ensures !HasGroup(cfg) ==> r == Failure(MissingGroup)
    ensures HasGroup(cfg) ==>
      (r.Success? <==> connect(cfg.brokers, cfg.consumerGroup.value, MergeConfigWithPreset(cfg, preset).value).None?)
    ensures HasGroup(cfg) && r.Failure? ==>
      r.error == ClientFailed(connect(cfg.brokers, cfg.consumerGroup.value, MergeConfigWithPreset(cfg, preset).value).value)
    ensures r.Success? ==>
      && r.value.config == cfg
      && r.value.group == cfg.consumerGroup.value
      && CarriesCredentials(r.value.clientConfig, cfg)
  {
    if cfg.consumerGroup.None? || cfg.consumerGroup.value == "" then Failure(MissingGroup)
    else
      var clientConfig := MergeConfigWithPreset(cfg, preset).value;
      match connect(cfg.brokers, cfg.consumerGroup.value, clientConfig)
      case Some(err) => Failure(ClientFailed(err))
      case None => Success(Consumer(cfg, cfg.consumerGroup.value, clientConfig))
  }

  /** Without a group the outcome does not depend on the client factory at all. */
  lemma GroupCheckedBeforeConnect<CErr>(cfg: TopicConfig, preset: Option<ClientConfig>,
                                        connect1: (seq<string>, string, ClientConfig) -> Option<CErr>,
                                        connect2: (seq<string>, string, ClientConfig) -> Option<CErr>)
    requires !HasGroup(cfg)
    ensures NewConsumer(cfg, preset, connect1) == NewConsumer(cfg, preset, connect2)
  {
  }

  /** A message of a claim as sarama delivers it. */
  datatype ConsumerMessage = ConsumerMessage(topic: string, offset: int, timestamp: int, key: ByteSlice, value: ByteSlice)

  /** What the claim loop's `select` observes next. */
  datatype ClaimEvent = Delivered(message: ConsumerMessage) | ChannelClosed | SessionDone

  /** What the claim loop logs. */
  datatype ClaimNote = UnmarshalFailed(offset: int) | CallbackFailed(offset: int) | MessageChannelClosed

  /**
   * A claim loop's observable behaviour: the callback invocations, the messages
   * marked for commit, the log, and whether the loop returned (always with nil).
   */
  datatype ClaimRun<E> = ClaimRun(invocations: seq<Invocation<E>>, marked: seq<ConsumerMessage>, notes: seq<ClaimNote>, returned: bool)

  /** The value is present but does not decode. */
  predicate Undecodable<E>(m: ConsumerMessage, decode: Bytes -> Option<E>)
  {
    m.value.Slice? && decode(m.value.bytes).None?
  }

  /** The event passed on: zero for a nil value and, since a decode failure is only logged, for an undecodable one. */
  function EventOf<E>(value: ByteSlice, decode: Bytes -> Option<E>, zero: E): E
  {
    match value
    case Nil => zero
    case Slice(b) => decode(b).GetOr(zero)
  }

  /** The callback arguments for a message. */
  function InvocationFor<E>(m: ConsumerMessage, decode: Bytes -> Option<E>, zero: E): Invocation<E>
  {
    Invocation(KeyString(m.key), EventOf(m.value, decode, zero), m.timestamp)
  }

  /** The callback accepts the message. */
  predicate Succeeds<E>(m: ConsumerMessage, decode: Bytes -> Option<E>, zero: E, callback: Callback<E>)
  {
    var inv := InvocationFor(m, decode, zero);
    callback(inv.key, inv.event, inv.timestamp)
  }

  /** Handling one message: decode (logging a failure), call back, mark only on success. */
  function Handle<E>(m: ConsumerMessage, decode: Bytes -> Option<E>, zero: E, callback: Callback<E>): (h: ClaimRun<E>)
    ensures |h.invocations| == 1 && h.invocations[0].key == KeyString(m.key) && h.invocations[0].timestamp == m.timestamp
    ensures m.value.Nil? || Undecodable(m, decode) ==> h.invocations[0].event == zero
    ensures m.value.Slice? && decode(m.value.bytes).Some? ==> h.invocations[0].event == decode(m.value.bytes).value
    ensures h.marked == (if callback(h.invocations[0].key, h.invocations[0].event, m.timestamp) then [m] else [])
    ensures UnmarshalFailed(m.offset) in h.notes <==> Undecodable(m, decode)
    ensures CallbackFailed(m.offset) in h.notes <==> h.marked == []
    ensures !h.returned
  {
    var ok := Succeeds(m, decode, zero, callback);
    ClaimRun(
      [InvocationFor(m, decode, zero)],
      if ok then [m] else [],
      (if Undecodable(m, decode) then [UnmarshalFailed(m.offset)] else []) + (if ok then [] else [CallbackFailed(m.offset)]),
      false)
  }

  /** The claim loop over the events it observes; a closed channel or a done session ends it. */
  function ConsumeClaim<E>(events: seq<ClaimEvent>, decode: Bytes -> Option<E>, zero: E, callback: Callback<E>): (run: ClaimRun<E>)
    ensures |run.marked| <= |run.invocations| <= |events|
    decreases |events|
  {
    if |events| == 0 then ClaimRun([], [], [], false)
    else
      match events[0]
      case ChannelClosed => ClaimRun([], [], [MessageChannelClosed], true)
      case SessionDone => ClaimRun([], [], [], true)
      case Delivered(m) =>
        var h := Handle(m, decode, zero, callback);
        var rest := ConsumeClaim(events[1..], decode, zero, callback);
        ClaimRun(h.invocations + rest.invocations, h.marked + rest.marked, h.notes + rest.notes, rest.returned)
  }

  /** The position of the first stop event, or the length when there is none. */
  function StopIndex(events: seq<ClaimEvent>): (n: nat)
    ensures n <= |events|
    ensures forall i | 0 <= i < n :: events[i].Delivered?
    ensures n < |events| ==> !events[n].Delivered?
    decreases |events|
  {
    if |events| == 0 || !events[0].Delivered? then 0 else 1 + StopIndex(events[1..])
  }

  /** The messages delivered before the loop stops, in channel order. */
  function DeliveredMessages(events: seq<ClaimEvent>): (ms: seq<ConsumerMessage>)
    ensures |ms| == StopIndex(events)
    ensures forall i | 0 <= i < |ms| :: events[i] == Delivered(ms[i])
  {
    seq(StopIndex(events), i requires 0 <= i < StopIndex(events) => events[i].message)
  }

  lemma DeliveredMessagesStep(events: seq<ClaimEvent>)
    requires |events| > 0 && events[0].Delivered?
    ensures DeliveredMessages(events) == [events[0].message] + DeliveredMessages(events[1..])
  {
    var ms, rest := DeliveredMessages(events), DeliveredMessages(events[1..]);
    assert |ms| == 1 + |rest|;
    forall i | 0 <= i < |ms| ensures ms[i] == ([events[0].message] + rest)[i] {
      if i > 0 {
        assert events[1..][i - 1] == Delivered(rest[i - 1]);
      }
    }
  }

  /**
   * Every message delivered before the first stop event reaches the callback,
   * in channel order, decodable or not; the loop returns exactly when a stop
   * event is observed.
   */
  lemma {:induction false} ClaimCallsBackInOrder<E>(events: seq<ClaimEvent>, decode: Bytes -> Option<E>, zero: E, callback: Callback<E>)
    ensures var run := ConsumeClaim(events, decode, zero, callback);
      && run.invocations == Seqs.Map((m: ConsumerMessage) => InvocationFor(m, decode, zero), DeliveredMessages(events))
      && run.returned == (StopIndex(events) < |events|)
    decreases |events|
  {
    if |events| > 0 && events[0].Delivered? {
      ClaimCallsBackInOrder(events[1..], decode, zero, callback);
      DeliveredMessagesStep(events);
      Seqs.MapAppend((m: ConsumerMessage) => InvocationFor(m, decode, zero), [events[0].message], DeliveredMessages(events[1..]));
    }
  }

  /** The marked messages are exactly the delivered ones whose callback succeeded, in order. */
  lemma {:induction false} ClaimMarksSucceeded<E>(events: seq<ClaimEvent>, decode: Bytes -> Option<E>, zero: E, callback: Callback<E>)
    ensures ConsumeClaim(events, decode, zero, callback).marked
      == Seqs.Filter((m: ConsumerMessage) => Succeeds(m, decode, zero, callback), DeliveredMessages(events))
    decreases |events|
  {
    if |events| > 0 && events[0].Delivered? {
      ClaimMarksSucceeded(events[1..], decode, zero, callback);
      DeliveredMessagesStep(events);
      var p := (m: ConsumerMessage) => Succeeds(m, decode, zero, callback);
      Seqs.FilterAppend(p, [events[0].message], DeliveredMessages(events[1..]));
    }
  }

  /**
   * A message is marked exactly when it was delivered before the loop stopped
   * and its callback succeeded; a failed callback leaves it unmarked, and no
   * message is marked more often than it was delivered.
   */
  lemma MarkedIffCallbackSucceeded<E>(events: seq<ClaimEvent>, decode: Bytes -> Option<E>, zero: E, callback: Callback<E>, m: ConsumerMessage)
    ensures var run := ConsumeClaim(events, decode, zero, callback);
      && (m in run.marked <==> m in DeliveredMessages(events) && Succeeds(m, decode, zero, callback))
      && multiset(run.marked) <= multiset(DeliveredMessages(events))
  {
    var p := (m: ConsumerMessage) => Succeeds(m, decode, zero, callback);
    ClaimMarksSucceeded(events, decode, zero, callback);
    Seqs.FilterMembership(p, DeliveredMessages(events), m);
    Seqs.FilterSubMultiset(p, DeliveredMessages(events));
  }

  /**
   * A message whose value does not decode is still passed to the callback (with
   * the zero event), and the failure is logged.
   */
  lemma {:induction false} DecodeFailureStillCallsBack<E>(events: seq<ClaimEvent>, decode: Bytes -> Option<E>, zero: E, callback: Callback<E>, i: nat)
    requires i < StopIndex(events) && Undecodable(events[i].message, decode)
    ensures var run := ConsumeClaim(events, decode, zero, callback); var m := events[i].message;
      && i < |run.invocations|
      && run.invocations[i] == Invocation(KeyString(m.key), zero, m.timestamp)
      && UnmarshalFailed(m.offset) in run.notes
    decreases i
  {
    var run := ConsumeClaim(events, decode, zero, callback);
    ClaimCallsBackInOrder(events, decode, zero, callback);
    if i > 0 {
      DecodeFailureStillCallsBack(events[1..], decode, zero, callback, i - 1);
      var h := Handle(events[0].message, decode, zero, callback);
      assert run.notes == h.notes + ConsumeClaim(events[1..], decode, zero, callback).notes;
    }
  }

  /** Once the channel is closed or the session is done, nothing further is processed. */
  lemma {:induction false} NothingAfterStop<E>(events: seq<ClaimEvent>, more: seq<ClaimEvent>, decode: Bytes -> Option<E>, zero: E, callback: Callback<E>)
    requires StopIndex(events) < |events|
    ensures ConsumeClaim(events + more, decode, zero, callback) == ConsumeClaim(events, decode, zero, callback)
    ensures ConsumeClaim(events, decode, zero, callback).returned
    decreases |events|
  {
    assert (events + more)[0] == events[0];
    if events[0].Delivered? {
      assert (events + more)[1..] == events[1..] + more;
      NothingAfterStop(events[1..], more, decode, zero, callback);
    }
  }

  /** What the outer loop logged and how it ended. */
  datatype RunTrace<Err> = RunTrace(consumeCalls: nat, logged: seq<Err>, exited: bool)

  /** The error reports that the consumer group was closed (`errors.Is` against the closed-group error). */
  predicate Closes<Err>(r: Option<Err>, isClosedGroup: Err -> bool)
  {
    r.Some? && isClosedGroup(r.value)
  }

  /** The errors among `Consume` returns, in order. */
  function Errors<Err>(outcomes: seq<Option<Err>>): (errs: seq<Err>)
    ensures |errs| <= |outcomes|
    decreases |outcomes|
  {
    if |outcomes| == 0 then []
    else (if outcomes[0].Some? then [outcomes[0].value] else []) + Errors(outcomes[1..])
  }

  /**
   * The outer loop over successive `Consume` returns: a closed-group error ends
   * it, any other error is logged, and a nil return starts a new session.
   */
  function Run<Err>(outcomes: seq<Option<Err>>, isClosedGroup: Err -> bool): (t: RunTrace<Err>)
    ensures t.consumeCalls <= |outcomes|
    ensures t.exited <==> exists i | 0 <= i < |outcomes| :: Closes(outcomes[i], isClosedGroup)
    ensures t.exited ==> 1 <= t.consumeCalls && Closes(outcomes[t.consumeCalls - 1], isClosedGroup)
    ensures forall i | 0 <= i < t.consumeCalls - 1 :: !Closes(outcomes[i], isClosedGroup)
    ensures !t.exited ==> t.consumeCalls == |outcomes|
    ensures |t.logged| <= t.consumeCalls
    ensures forall i | 0 <= i < |t.logged| :: !isClosedGroup(t.logged[i])
    ensures t.logged == Errors(outcomes[..if t.exited then t.consumeCalls - 1 else t.consumeCalls])
    decreases |outcomes|
  {
    if |outcomes| == 0 then RunTrace(0, [], false)
    else if Closes(outcomes[0], isClosedGroup) then RunTrace(1, [], true)
    else
      var rest := Run(outcomes[1..], isClosedGroup);
      assert forall i | 1 <= i < |outcomes| :: outcomes[i] == outcomes[1..][i - 1];
      var n := if rest.exited then rest.consumeCalls - 1 else rest.consumeCalls;
      assert outcomes[..1 + n][1..] == outcomes[1..][..n];
      RunTrace(1 + rest.consumeCalls, (if outcomes[0].Some? then [outcomes[0].value] else []) + rest.logged, rest.exited)
  }

  /** Every config the as-written pkg/kafka parse produces is refused by `NewConsumer`. */
  lemma AsWrittenConfigsCannotConsume<CErr>(text: string, unmarshal: KafkaConfig.Unmarshal, env: string -> string, key: string,
                                            preset: Option<ClientConfig>, connect: (seq<string>, string, ClientConfig) -> Option<CErr>)
    requires KafkaConfig.ParseTopicConfigsAsWritten(text, unmarshal, env).Parsed?
    requires key in KafkaConfig.ParseTopicConfigsAsWritten(text, unmarshal, env).configs
    ensures NewConsumer(KafkaConfig.ParseTopicConfigsAsWritten(text, unmarshal, env).configs[key], preset, connect) == Failure(MissingGroup)
  {
  }

  /** With the group copied, a resolved descriptor passes the group check exactly when it names a non-empty group. */
  lemma CorrectedConfigsCanConsume<CErr>(raw: KafkaConfig.RawTopicConfig, env: string -> string,
                                         preset: Option<ClientConfig>, connect: (seq<string>, string, ClientConfig) -> Option<CErr>)
    requires KafkaConfig.Resolve(raw, env).Resolved?
    ensures var cfg := KafkaConfig.Resolve(raw, env).config;
      && (HasGroup(cfg) <==> raw.consumerGroup != "")
      && (NewConsumer(cfg, preset, connect) == Failure(MissingGroup) <==> raw.consumerGroup == "")
  {
  }
}

=== FILE: kafka_producer.dfy ===
/** The franz-go producer of the kafka package: value-only records, synchronous produce. */
module KafkaProducer {
  import opened Wrappers
  import opened Wire
  import opened Topics

  /** A connected client and the topic it produces to by default. */
  datatype Client = Client(defaultTopic: string)

  /** A producer; the zero value has no client. */
  datatype Producer = Producer(client: Option<Client>)

  /** The constructor's two results: the producer and the error. */
  datatype Created<CErr> = Created(producer: Producer, error: Option<CErr>)

  /**
   * Creates the producer. `connect` stands for creating the franz-go client
   * from the topic's options; on failure the zero producer is returned with the error.
   */
  function CreateProducer<CErr>(cfg: TopicConfig, connect: TopicConfig -> Option<CErr>): (r: Created<CErr>)
    ensures r.error == connect(cfg)
    ensures r.error.Some? ==> r.producer == Producer(None)
    ensures r.error.None? ==> r.producer.client == Some(Client(cfg.topic))
  {
    match connect(cfg)
    case Some(err) => Created(Producer(None), Some(err))
    case None => Created(Producer(Some(Client(cfg.topic))), None)
  }

  /**
   * Produces one event. The event is always marshalled; a marshal error is
   * returned before anything is produced; otherwise the record carries the
   * JSON as its value and no key, and the call returns the first produce error.
   */
  function ProduceSync<E, Err>(event: E, marshal: E -> Result<Bytes, Err>, produce: Record -> seq<Option<Err>>): (r: Produced<Err>)
    ensures r.dispatched.None? <==> marshal(event).Failure?
    ensures r.dispatched.None? ==> r.error == Some(marshal(event).error)
    ensures r.dispatched.Some? ==> r.dispatched.value == Record(Nil, Slice(marshal(event).value))
    ensures r.dispatched.Some? ==>
      && (r.error.None? <==> forall i | 0 <= i < |produce(r.dispatched.value)| :: produce(r.dispatched.value)[i].None?)
      && r.error == FirstErr(produce(r.dispatched.value))
  {
    match marshal(event)
    case Failure(e) => Produced(None, Some(e))
    case Success(bytes) =>
      var record := Record(Nil, Slice(bytes));
      Produced(Some(record), FirstErr(produce(record)))
  }
}

=== FILE: kafka_producer_async.dfy ===
/**
 * The fire-and-forget producer: serialisation happens in the call, the send and
 * the post-send callback happen afterwards on their own. The model runs the
 * dispatched part to completion and reports it beside the call's return.
 */
module KafkaAsyncProducer {
  import opened Wrappers
  import opened Wire
  import opened Topics
  import opened ClientSettings
  import KafkaSyncProducer

  /** A created producer: its topic and the client config it connected with. */
  datatype AsyncProducer = AsyncProducer(topic: string, clientConfig: ClientConfig)

  /** Creates the producer exactly as the synchronous one is created. */
  function CreateAsyncProducer<CErr>(cfg: TopicConfig, preset: Option<ClientConfig>,
                                     connect: (seq<string>, ClientConfig) -> Option<CErr>): (r: Result<AsyncProducer, CErr>)
    ensures r.Success? <==> connect(cfg.brokers, ProducerClientConfig(cfg, preset)).None?
    ensures r.Failure? ==> r.error == connect(cfg.brokers, ProducerClientConfig(cfg, preset)).value
    ensures r.Success? ==>
      && r.value.topic == cfg.topic
      && r.value.clientConfig.returnSuccesses
      && CarriesCredentials(r.value.clientConfig, cfg)
  {
    var clientConfig := ProducerClientConfig(cfg, preset);
    match connect(cfg.brokers, clientConfig)
    case Some(err) => Failure(err)
    case None => Success(AsyncProducer(cfg.topic, clientConfig))
  }

  /** A warning a callback logs. */
  datatype Warning<Err> = Warning(text: string, cause: Err)

  /** A post-send callback, given the message and the send's error, and what it logs. */
  type PostSendCallback<!Err> = (ProducerMessage, Option<Err>) -> seq<Warning<Err>>

  /** The callback that does nothing. */
  function NoopCallback<Err>(m: ProducerMessage, err: Option<Err>): (logged: seq<Warning<Err>>)
    ensures logged == []
  {
    []
  }

  /** The callback that logs a failed send and nothing else. */
  function LogErrorCallback<Err>(m: ProducerMessage, err: Option<Err>): (logged: seq<Warning<Err>>)
    ensures logged == [] <==> err.None?
    ensures err.Some? ==> logged == [Warning("failed to send kafka message", err.value)]
  {
    match err
    case None => []
    case Some(e) => [Warning("failed to send kafka message", e)]
  }

  /**
   * One call: what it returned, the message it dispatched, the callback
   * invocations with their arguments, and what the callback logged.
   */
  datatype AsyncSent<Err> = AsyncSent(
    returned: Option<Err>,
    dispatched: Option<ProducerMessage>,
    callbacks: seq<(ProducerMessage, Option<Err>)>,
    logged: seq<Warning<Err>>)

  /**
   * Produces one message. A marshal error is returned at once and nothing is
   * dispatched; otherwise the call returns nil whatever the send does, and the
   * callback, when there is one, runs once with the message and the send's error.
   */
  function Produce<V, Err>(p: AsyncProducer, key: Option<Bytes>, value: Option<V>, marshal: V -> Result<Bytes, Err>,
                           send: ProducerMessage -> Option<Err>, postSend: Option<PostSendCallback<Err>>): (r: AsyncSent<Err>)
    ensures |r.callbacks| <= 1
    ensures r.returned.Some? <==> value.Some? && marshal(value.value).Failure?
    ensures r.returned.Some? ==>
      && r.returned.value == marshal(value.value).error
      && r.dispatched.None? && r.callbacks == [] && r.logged == []
    ensures r.returned.None? ==>
      && r.dispatched.Some? && r.dispatched.value.topic == p.topic
      && (|r.callbacks| == 1 <==> postSend.Some?)
    ensures |r.callbacks| == 1 ==>
      && r.callbacks[0] == (r.dispatched.value, send(r.dispatched.value))
      && r.logged == postSend.value(r.dispatched.value, send(r.dispatched.value))
    ensures postSend.None? ==> r.logged == []
  {
    match BuildMessage(p.topic, key, value, marshal)
    case Failure(e) => AsyncSent(Some(e), None, [], [])
    case Success(m) =>
      var err := send(m);
      match postSend
      case None => AsyncSent(None, Some(m), [], [])
      case Some(cb) => AsyncSent(None, Some(m), [(m, err)], cb(m, err))
  }

  /** The call's return never depends on how the send turns out. */
  lemma ReturnIgnoresSendOutcome<V, Err>(p: AsyncProducer, key: Option<Bytes>, value: Option<V>, marshal: V -> Result<Bytes, Err>,
                                         send1: ProducerMessage -> Option<Err>, send2: ProducerMessage -> Option<Err>,
                                         postSend: Option<PostSendCallback<Err>>)
    ensures Produce(p, key, value, marshal, send1, postSend).returned == Produce(p, key, value, marshal, send2, postSend).returned
    ensures Produce(p, key, value, marshal, send1, postSend).dispatched == Produce(p, key, value, marshal, send2, postSend).dispatched
  {
  }

  /** The message is keyed and encoded exactly as the synchronous producer would. */
  lemma EncodingMatchesSyncProducer<V, Err>(p: AsyncProducer, key: Option<Bytes>, value: Option<V>, marshal: V -> Result<Bytes, Err>,
                                            send: ProducerMessage -> Option<Err>, postSend: Option<PostSendCallback<Err>>)
    ensures Produce(p, key, value, marshal, send, postSend).dispatched
      == KafkaSyncProducer.Produce(KafkaSyncProducer.SyncProducer(p.topic, p.clientConfig), key, value, marshal, send).dispatched
  {
  }

  /** With the logging callback, a warning appears exactly when the send failed. */
  lemma LogErrorCallbackWarnsOnFailure<V, Err>(p: AsyncProducer, key: Option<Bytes>, value: Option<V>, marshal: V -> Result<Bytes, Err>,
                                               send: ProducerMessage -> Option<Err>)
    requires value.Some? ==> marshal(value.value).Success?
    ensures var r := Produce(p, key, value, marshal, send, Some(LogErrorCallback));
      r.returned.None? && (r.logged != [] <==> send(r.dispatched.value).Some?)
  {
  }
}

=== FILE: kafka_producer_sync.dfy ===
/** The sarama synchronous producer: one message per call, the send's error returned as is. */
module KafkaSyncProducer {
  import opened Wrappers
  import opened Wire
  import opened Topics
  import opened ClientSettings

  /** A created producer: its topic and the client config it connected with. */
  datatype SyncProducer = SyncProducer(topic: string, clientConfig: ClientConfig)

  /**
   * Creates the producer. `connect(brokers, clientConfig)` stands for creating
   * sarama's synchronous producer client and answers its error, if any; the
   * config it receives reports successes and carries the topic's credentials.
   */
  function NewSyncProducer<CErr>(cfg: TopicConfig, preset: Option<ClientConfig>,
                                 connect: (seq<string>, ClientConfig) -> Option<CErr>): (r: Result<SyncProducer, CErr>)
    ensures r.Success? <==> connect(cfg.brokers, ProducerClientConfig(cfg, preset)).None?
    ensures r.Failure? ==> r.error == connect(cfg.brokers, ProducerClientConfig(cfg, preset)).value
    ensures r.Success? ==>
      && r.value.topic == cfg.topic
      && r.value.clientConfig.returnSuccesses
      && CarriesCredentials(r.value.clientConfig, cfg)
  {
    var clientConfig := ProducerClientConfig(cfg, preset);
    match connect(cfg.brokers, clientConfig)
    case Some(err) => Failure(err)
    case None => Success(SyncProducer(cfg.topic, clientConfig))
  }

  /** What one call did: the message handed to the client, if any, and the returned error. */
  datatype Sent<Err> = Sent(dispatched: Option<ProducerMessage>, error: Option<Err>)

  /**
   * Produces one message. A marshal error is returned before anything is sent;
   * otherwise the message goes to the producer's topic and the call returns
   * exactly the send's error, or nil.
   */
  function Produce<V, Err>(p: SyncProducer, key: Option<Bytes>, value: Option<V>,
                           marshal: V -> Result<Bytes, Err>, send: ProducerMessage -> Option<Err>): (r: Sent<Err>)
    ensures r.dispatched.None? <==> value.Some? && marshal(value.value).Failure?
    ensures r.dispatched.None? ==> r.error == Some(marshal(value.value).error)
    ensures r.dispatched.Some? ==>
      && r.dispatched.value.topic == p.topic
      && r.dispatched.value.key == KeyBytes(key)
      && (value.None? ==> r.dispatched.value.value == Nil)
      && (value.Some? ==> r.dispatched.value.value == Slice(marshal(value.value).value))
      && r.error == send(r.dispatched.value)
  {
    match BuildMessage(p.topic, key, value, marshal)
    case Failure(e) => Sent(None, Some(e))
    case Success(m) => Sent(Some(m), send(m))
  }

  /** Producing a nil value never consults the marshaller. */
  lemma NilValueNotMarshalled<V, Err>(p: SyncProducer, key: Option<Bytes>, marshal1: V -> Result<Bytes, Err>,
                                      marshal2: V -> Result<Bytes, Err>, send: ProducerMessage -> Option<Err>)
    ensures Produce(p, key, None, marshal1, send) == Produce(p, key, None, marshal2, send)
    ensures Produce(p, key, None, marshal1, send).dispatched == Some(ProducerMessage(p.topic, KeyBytes(key), Nil))
  {
  }
}

=== FILE: seqs.dfy ===
/** Sequence helpers: order-preserving filter and map. */
module Seqs {

  /** The elements of `s` that satisfy `p`, in their original order. */
  function Filter<T>(p: T -> bool, s: seq<T>): (r: seq<T>)
    ensures |r| <= |s|
    ensures forall i | 0 <= i < |r| :: p(r[i])
    decreases |s|
  {
    if |s| == 0 then []
    else (if p(s[0]) then [s[0]] else []) + Filter(p, s[1..])
  }

  /** An element is kept exactly when it occurs in `s` and satisfies `p`. */
  lemma {:induction false} FilterMembership<T>(p: T -> bool, s: seq<T>, x: T)
    ensures x in Filter(p, s) <==> x in s && p(x)
    decreases |s|
  {
    if |s| > 0 {
      FilterMembership(p, s[1..], x);
      assert s == [s[0]] + s[1..];
    }
  }

  /** Filtering never duplicates an element: each occurs at most as often as in `s`. */
  lemma {:induction false} FilterSubMultiset<T>(p: T -> bool, s: seq<T>)
    ensures multiset(Filter(p, s)) <= multiset(s)
    decreases |s|
  {
    if |s| > 0 {
      FilterSubMultiset(p, s[1..]);
      assert s == [s[0]] + s[1..];
    }
  }

  /** Filtering distributes over concatenation. */
  lemma {:induction false} FilterAppend<T>(p: T -> bool, a: seq<T>, b: seq<T>)
    ensures Filter(p, a + b) == Filter(p, a) + Filter(p, b)
    decreases |a|
  {
    if |a| > 0 {
      FilterAppend(p, a[1..], b);
      assert (a + b)[1..] == a[1..] + b;
    } else {
      assert a + b == b;
    }
  }

  /** `f` applied to every element of `s`, in order. */
  function Map<T, U>(f: T -> U, s: seq<T>): (r: seq<U>)
    ensures |r| == |s|
    ensures forall i | 0 <= i < |s| :: r[i] == f(s[i])
  {
    seq(|s|, i requires 0 <= i < |s| => f(s[i]))
  }

  /** Mapping distributes over concatenation. */
  lemma MapAppend<T, U>(f: T -> U, a: seq<T>, b: seq<T>)
    ensures Map(f, a + b) == Map(f, a) + Map(f, b)
  {
  }
}

=== FILE: topics.dfy ===
/**
 * The resolved topic configuration shared by both client packages, the errors
 * resolution can report, and the all-or-nothing walk over a decoded
 * configuration document that both versions of topic-config parsing perform.
 */
module Topics {
  import opened Wrappers
  import Validation

  /** The configuration key holding the JSON document of topic descriptors. */
  const KeyKafkaTopicsConfig: string := "KAFKA_TOPICS_CONFIG"

  /** A resolved, ready-to-use topic descriptor. */
  datatype TopicConfig = TopicConfig(
    topic: string,
    brokers: seq<string>,
    username: string,
    password: string,
    consumerGroup: Option<string>,
    authType: string)

  /** Why a configuration document was refused. */
  datatype ConfigError =
    | Malformed                                       // the document is not the expected JSON
    | EmptyEnvPassword(topic: string, envVar: string) // the named variable looked up to ""
    | EmptyPassword(topic: string)                    // the literal password is ""
    | NoPassword(topic: string)                       // neither password field is present

  /** What resolving one raw descriptor yields; `Crash` is a Go runtime panic. */
  datatype Entry = Resolved(config: TopicConfig) | Invalid(error: ConfigError) | Crash

  /** What parsing a whole document yields: every entry resolved, an error, or a panic. */
  datatype Parse = Parsed(configs: map<string, TopicConfig>) | Rejected(error: ConfigError) | Panicked

  /** How a failing entry ends the whole parse. */
  function Abort(e: Entry): Parse
    requires !e.Resolved?
  {
    match e
    case Invalid(err) => Rejected(err)
    case Crash => Panicked
  }

  /** What a parse means to a validator: a map is accepted, an error reported, a panic passed on. */
  function Verdict(p: Parse): (c: Validation.Check<ConfigError>)
    ensures c.Accepts? <==> p.Parsed?
    ensures c.Panics? <==> p.Panicked?
    ensures p.Rejected? ==> c == Validation.Reports(p.error)
  {
    match p
    case Parsed(_) => Validation.Accepts
    case Rejected(err) => Validation.Reports(err)
    case Panicked => Validation.Panics
  }

  /**
   * The single configuration item of either package: the topic document, read
   * from the environment under its key and validated by parsing it.
   */
  function ConfigItems(parse: string -> Parse, env: string -> string): (items: seq<Validation.ConfigItem<ConfigError>>)
    ensures |items| == 1 && items[0].key == KeyKafkaTopicsConfig && items[0].envName == KeyKafkaTopicsConfig
    ensures items[0].validate.Some?
    ensures Validation.Passes(items[0]) <==> parse(env(KeyKafkaTopicsConfig)).Parsed?
    ensures Validation.Panicking(items[0]) <==> parse(env(KeyKafkaTopicsConfig)).Panicked?
    ensures parse(env(KeyKafkaTopicsConfig)).Rejected? ==>
      Validation.CheckOf(items[0]) == Validation.Reports(parse(env(KeyKafkaTopicsConfig)).error)
  {
    [Validation.ConfigItem(KeyKafkaTopicsConfig, KeyKafkaTopicsConfig,
       Some((key: string) => Verdict(parse(env(key)))))]
  }

  /** `order` visits every key of `keys` exactly once. */
  predicate Enumerates(order: seq<string>, keys: set<string>)
  {
    && |order| == |keys|
    && (forall i | 0 <= i < |order| :: order[i] in keys)
    && (forall k | k in keys :: k in order)
  }

  /**
   * A decoded JSON object of topic keys to raw descriptors, together with the
   * order in which Go's map iteration happens to visit its keys.
   */
  datatype RawDocument<R> = RawDocument(entries: map<string, R>, order: seq<string>)

  type Document<R> = d: RawDocument<R> | Enumerates(d.order, d.entries.Keys)
    witness RawDocument(map[], [])

  /**
   * Resolves the entries in `order`, stopping at the first one that fails; the
   * map is returned only when every entry resolved.
   */
  function Collect<R>(entries: map<string, R>, order: seq<string>, resolve: R -> Entry): (r: Parse)
    requires forall i | 0 <= i < |order| :: order[i] in entries
    ensures r.Parsed? <==> forall i | 0 <= i < |order| :: resolve(entries[order[i]]).Resolved?
    ensures r.Parsed? ==> r.configs.Keys == set i | 0 <= i < |order| :: order[i]
    ensures r.Parsed? ==> forall k | k in r.configs :: k in entries && resolve(entries[k]) == Resolved(r.configs[k])
    ensures !r.Parsed? ==> exists i | 0 <= i < |order| ::
      && (forall j | 0 <= j < i :: resolve(entries[order[j]]).Resolved?)
      && !resolve(entries[order[i]]).Resolved?
      && r == Abort(resolve(entries[order[i]]))
    decreases |order|
  {
    if |order| == 0 then Parsed(map[])
    else
      var first := resolve(entries[order[0]]);
      if !first.Resolved? then Abort(first)
      else
        var rest := Collect(entries, order[1..], resolve);
        assert forall i | 0 <= i < |order[1..]| :: order[1..][i] == order[i + 1];
        assert (set i | 0 <= i < |order| :: order[i]) == {order[0]} + set i | 0 <= i < |order[1..]| :: order[1..][i];
        if rest.Parsed? then Parsed(rest.configs[order[0] := first.config]) else rest
  }

  /**
   * Parsing a decoded document: a document that did not decode is `Malformed`;
   * otherwise the entries are resolved all-or-nothing.
   */
  function ParseDocument<R>(doc: Option<Document<R>>, resolve: R -> Entry): (r: Parse)
    ensures doc.None? ==> r == Rejected(Malformed)
    ensures doc.Some? ==> (r.Parsed? <==> forall k | k in doc.value.entries :: resolve(doc.value.entries[k]).Resolved?)
    ensures r.Parsed? ==> doc.Some? && r.configs.Keys == doc.value.entries.Keys
    ensures r.Parsed? ==> forall k | k in r.configs ::
      k in doc.value.entries && resolve(doc.value.entries[k]) == Resolved(r.configs[k])
    ensures doc.Some? && !r.Parsed? ==> exists k | k in doc.value.entries ::
      !resolve(doc.value.entries[k]).Resolved? && r == Abort(resolve(doc.value.entries[k]))
  {
    match doc
    case None => Rejected(Malformed)
    case Some(d) =>
      var r := Collect(d.entries, d.order, resolve);
      assert (set i | 0 <= i < |d.order| :: d.order[i]) == d.entries.Keys by {
        forall k | k in d.entries.Keys ensures k in set i | 0 <= i < |d.order| :: d.order[i] {
          var i :| 0 <= i < |d.order| && d.order[i] == k;
        }
      }
      r
  }

  /**
   * Go visits map keys in an unspecified order; whether a document parses, and
   * what it parses to, do not depend on that order.
   */
  lemma ParseIndependentOfOrder<R>(d1: Document<R>, d2: Document<R>, resolve: R -> Entry)
    requires d1.entries == d2.entries
    ensures ParseDocument(Some(d1), resolve).Parsed? == ParseDocument(Some(d2), resolve).Parsed?
    ensures ParseDocument(Some(d1), resolve).Parsed? ==> ParseDocument(Some(d1), resolve) == ParseDocument(Some(d2), resolve)
  {
    var r1, r2 := ParseDocument(Some(d1), resolve), ParseDocument(Some(d2), resolve);
    if r1.Parsed? {
      assert forall k | k in r1.configs :: r1.configs[k] == r2.configs[k];
      assert r1.configs == r2.configs;
    }
  }

  /**
   * Two resolvers that agree on every entry the first one resolves parse a
   * document the first one accepts to the same map.
   */
  lemma ParsedAgree<R>(doc: Document<R>, resolve1: R -> Entry, resolve2: R -> Entry)
    requires ParseDocument(Some(doc), resolve1).Parsed?
    requires forall k | k in doc.entries :: resolve1(doc.entries[k]).Resolved? ==> resolve2(doc.entries[k]) == resolve1(doc.entries[k])
    ensures ParseDocument(Some(doc), resolve2) == ParseDocument(Some(doc), resolve1)
  {
    var r1, r2 := ParseDocument(Some(doc), resolve1), ParseDocument(Some(doc), resolve2);
    assert r2.Parsed?;
    assert forall k | k in r1.configs :: r1.configs[k] == r2.configs[k];
    assert r1.configs == r2.configs;
  }

  /**
   * Two resolvers where the second one fails exactly as the first wherever the
   * first reports an error, and resolves wherever the first resolves, walk a
   * document alike unless the first one panics.
   */
  lemma {:induction false} CollectAgreesUnlessPanicked<R>(entries: map<string, R>, order: seq<string>, resolve1: R -> Entry, resolve2: R -> Entry)
    requires forall i | 0 <= i < |order| :: order[i] in entries
    requires forall i | 0 <= i < |order| :: resolve1(entries[order[i]]).Resolved? ==> resolve2(entries[order[i]]).Resolved?
    requires forall i | 0 <= i < |order| :: resolve1(entries[order[i]]).Invalid? ==> resolve2(entries[order[i]]) == resolve1(entries[order[i]])
    ensures Collect(entries, order, resolve1).Parsed? ==> Collect(entries, order, resolve2).Parsed?
    ensures Collect(entries, order, resolve1).Rejected? ==> Collect(entries, order, resolve2) == Collect(entries, order, resolve1)
    decreases |order|
  {
    if |order| > 0 && resolve1(entries[order[0]]).Resolved? {
      assert forall i | 0 <= i < |order[1..]| :: order[1..][i] == order[i + 1];
      CollectAgreesUnlessPanicked(entries, order[1..], resolve1, resolve2);
    }
  }

  /** `CollectAgreesUnlessPanicked` for a whole document, whatever its iteration order. */
  lemma AgreesUnlessPanicked<R>(doc: Document<R>, resolve1: R -> Entry, resolve2: R -> Entry)
    requires forall k | k in doc.entries :: resolve1(doc.entries[k]).Resolved? ==> resolve2(doc.entries[k]).Resolved?
    requires forall k | k in doc.entries :: resolve1(doc.entries[k]).Invalid? ==> resolve2(doc.entries[k]) == resolve1(doc.entries[k])
    ensures ParseDocument(Some(doc), resolve1).Parsed? ==> ParseDocument(Some(doc), resolve2).Parsed?
    ensures ParseDocument(Some(doc), resolve1).Rejected? ==> ParseDocument(Some(doc), resolve2) == ParseDocument(Some(doc), resolve1)
  {
    CollectAgreesUnlessPanicked(doc.entries, doc.order, resolve1, resolve2);
  }
}

=== FILE: validation.dfy ===
/**
 * Configuration items with optional validators, and the aggregation that runs
 * every validator and joins the failures into one error.
 */
module Validation {
  import opened Wrappers

  /** What a validator does with a key: accept it, report an error, or panic. */
  datatype Check<Err> = Accepts | Reports(error: Err) | Panics

  /** A configuration key, its environment name, and an optional validator of the key. */
  datatype ConfigItem<Err> = ConfigItem(key: string, envName: string, validate: Option<string -> Check<Err>>)

  /** What validating the item does; an item without a validator is accepted. */
  function CheckOf<Err>(item: ConfigItem<Err>): Check<Err>
  {
    if item.validate.None? then Accepts else item.validate.value(item.key)
  }

  /** The item has no validator, or its validator accepts the item's key. */
  predicate Passes<Err>(item: ConfigItem<Err>)
  {
    CheckOf(item).Accepts?
  }

  /** The item's validator panics on the item's key. */
  predicate Panicking<Err>(item: ConfigItem<Err>)
  {
    CheckOf(item).Panics?
  }

  /** The errors reported by the items' validators, in item order. */
  function Failures<Err>(items: seq<ConfigItem<Err>>): seq<Err>
    decreases |items|
  {
    if |items| == 0 then []
    else
      var last := items[|items| - 1];
      Failures(items[..|items| - 1]) + (if CheckOf(last).Reports? then [CheckOf(last).error] else [])
  }

  lemma {:induction false} FailuresEmptyIff<Err>(items: seq<ConfigItem<Err>>)
    ensures Failures(items) == [] <==> forall i | 0 <= i < |items| :: !CheckOf(items[i]).Reports?
    decreases |items|
  {
    if |items| > 0 {
      var init := items[..|items| - 1];
      FailuresEmptyIff(init);
      assert forall i | 0 <= i < |init| :: init[i] == items[i];
    }
  }

  /** How validation ended: it returned the joined error (nil when `None`), or a validator panicked. */
  datatype Outcome<Err> = Returned(joined: Option<seq<Err>>) | Panicked

  /**
   * Runs every item's validator in order. A panicking validator ends the run;
   * otherwise the result is nil (`None`) exactly when every item passed, and
   * else the join of every failure, in item order.
   */
  method Validate<Err>(items: seq<ConfigItem<Err>>) returns (r: Outcome<Err>)
    ensures r.Panicked? <==> exists i | 0 <= i < |items| :: Panicking(items[i])
    ensures r.Returned? ==> (r.joined.None? <==> forall i | 0 <= i < |items| :: Passes(items[i]))
    ensures r.Returned? && r.joined.Some? ==> r.joined.value == Failures(items) && |r.joined.value| > 0
  {
    var errs: seq<Err> := [];
    var i := 0;
    while i < |items|
      invariant 0 <= i <= |items|
      invariant forall j | 0 <= j < i :: !Panicking(items[j])
      invariant errs == Failures(items[..i])
    {
      var it := items[i];
      if it.validate.Some? {
        var check := it.validate.value(it.key);
        if check.Panics? {
          return Panicked;
        }
        if check.Reports? {
          errs := errs + [check.error];
        }
      }
      assert items[..i + 1][..i] == items[..i];
      i := i + 1;
    }
    assert items[..|items|] == items;
    FailuresEmptyIff(items);
    r := if |errs| == 0 then Returned(None) else Returned(Some(errs));
  }
}

=== FILE: wire.dfy ===
/**
 * What travels between the application and the broker clients: byte slices,
 * message keys, JSON-encoded values, sarama producer messages, franz-go records
 * and their produce results, and the arguments a consumer hands to its callback.
 *
 * Go strings used as message keys are byte sequences and are modelled as `Bytes`;
 * converting between a key string and its bytes is the identity on the bytes.
 */
module Wire {
  import opened Wrappers

  newtype uint8 = x: int | 0 <= x < 0x100
  type Bytes = seq<uint8>

  /** A Go `[]byte`: the nil slice, or a slice holding zero or more bytes. */
  datatype ByteSlice = Nil | Slice(bytes: Bytes)

  /** Producer side: an absent key becomes the nil slice, a present key its bytes. */
  function KeyBytes(key: Option<Bytes>): (b: ByteSlice)
    ensures b.Nil? <==> key.None?
    ensures key.Some? ==> b.bytes == key.value
  {
    match key
    case None => Nil
    case Some(k) => Slice(k)
  }

  /** Consumer side: the key string handed to a callback; empty when the key is nil. */
  function KeyString(key: ByteSlice): (s: Bytes)
    ensures key.Nil? ==> s == []
    ensures key.Slice? ==> s == key.bytes
  {
    match key
    case Nil => []
    case Slice(b) => b
  }

  /** A key survives the trip from producer to consumer; an absent key arrives as "". */
  lemma KeyRoundTrip(key: Option<Bytes>)
    ensures KeyString(KeyBytes(key)) == key.GetOr([])
    ensures key.None? <==> KeyBytes(key).Nil?
  {
  }

  /**
   * Producer side value encoding shared by the producers that take an optional
   * value: an absent value becomes the nil slice without consulting `marshal`;
   * a present one is marshalled and a marshal error is passed back unchanged.
   */
  function EncodeValue<V, Err>(value: Option<V>, marshal: V -> Result<Bytes, Err>): (r: Result<ByteSlice, Err>)
    ensures value.None? ==> r == Success(Nil)
    ensures value.Some? ==> (r.Failure? <==> marshal(value.value).Failure?)
    ensures value.Some? && r.Failure? ==> r.error == marshal(value.value).error
    ensures value.Some? && r.Success? ==> r.value == Slice(marshal(value.value).value)
  {
    match value
    case None => Success(Nil)
    case Some(v) =>
      match marshal(v)
      case Failure(e) => Failure(e)
      case Success(b) => Success(Slice(b))
  }

  /** `decode` reads back exactly `v` from the bytes `marshal` produces for it. */
  ghost predicate RoundTrips<V, Err>(marshal: V -> Result<Bytes, Err>, decode: Bytes -> Option<V>, v: V)
  {
    marshal(v).Success? && decode(marshal(v).value) == Some(v)
  }

  /** A sarama producer message: destination topic, key and value encoders' bytes. */
  datatype ProducerMessage = ProducerMessage(topic: string, key: ByteSlice, value: ByteSlice)

  /**
   * The sarama message both sarama producers build: the producer's topic, the
   * key's bytes (nil when absent), and the value's JSON (nil when absent). A
   * marshal error is returned instead of a message.
   */
  function BuildMessage<V, Err>(topic: string, key: Option<Bytes>, value: Option<V>, marshal: V -> Result<Bytes, Err>): (r: Result<ProducerMessage, Err>)
    ensures r.Failure? <==> value.Some? && marshal(value.value).Failure?
    ensures r.Failure? ==> r.error == marshal(value.value).error
    ensures r.Success? ==>
      && r.value.topic == topic
      && r.value.key == KeyBytes(key)
      && (value.None? ==> r.value.value == Nil)
      && (value.Some? ==> r.value.value == Slice(marshal(value.value).value))
  {
    match EncodeValue(value, marshal)
    case Failure(e) => Failure(e)
    case Success(v) => Success(ProducerMessage(topic, KeyBytes(key), v))
  }

  /** A franz-go record as the producers build it; the topic is left to the client's default. */
  datatype Record = Record(key: ByteSlice, value: ByteSlice)

  /**
   * The first error among a franz-go produce call's per-record results, or none
   * when every record was acknowledged.
   */
  function FirstErr<Err>(results: seq<Option<Err>>): (r: Option<Err>)
    ensures r.None? <==> forall i | 0 <= i < |results| :: results[i].None?
    ensures r.Some? ==> exists i | 0 <= i < |results| ::
      results[i] == r && forall j | 0 <= j < i :: results[j].None?
    decreases |results|
  {
    if |results| == 0 then None
    else if results[0].Some? then results[0]
    else
      var rest := FirstErr(results[1..]);
      assert rest.Some? ==> exists i | 0 <= i < |results[1..]| ::
        results[1..][i] == rest && forall j | 0 <= j < i :: results[1..][j].None?;
      rest
  }

  /** What a franz-go synchronous produce did: the record it handed to the client, and the error it returned. */
  datatype Produced<Err> = Produced(dispatched: Option<Record>, error: Option<Err>)

  /** The arguments a consumer passes to its callback: key string, event, record timestamp. */
  datatype Invocation<E> = Invocation(key: Bytes, event: E, timestamp: int)

  /**
   * A consumer callback: given the key, the event and the timestamp it answers
   * whether it succeeded (the Go callback returned a nil error).
   */
  type Callback<!E> = (Bytes, E, int) -> bool
}

=== FILE: wrappers.dfy ===
/** Option and Result, the failure-carrying datatypes used throughout the model. */
module Wrappers {

  /** A value that may be absent; stands for a Go pointer that may be nil. */
  datatype Option<+T> = None | Some(value: T) {

    /** The value, or `default` when absent. */
    function GetOr(default: T): T {
      match this
      case Some(v) => v
      case None => default
    }
  }

  /** A Go `(value, error)` pair where exactly one side is meaningful. */
  datatype Result<+R, +E> = Success(value: R) | Failure(error: E)
}
